=== FILE: README.md ===
# AI services routing and text utilities, in Dafny

This project models the pure logic inside the AI-services part of an Office add-in monorepo.

The shared client library (`ai-services/shared/ai_utils.py`) contributes four pieces:

- `chunk_text` packs a text's words greedily into chunks within a character budget of four characters per token.
- `format_response_for_office` rewrites a model's reply for Word by format name: `markdown`, `html`, `plain` or anything else.
- `LLMClient` normalises its gateway URL and builds the chat-completion body.
- `LLMClient` also reads the gateway's OpenAI-format reply back into an `LLMResponse`.

The LLM gateway (`ai-services/llm-gateway/server.py`) contributes:

- its environment configuration;
- the generic-to-provider model table of `get_model_name`;
- provider resolution (`request.provider or config.default_provider`) and the `ollama/` prefix for the local provider, in both the chat and the embeddings handler;
- the `switch_provider` state change;
- the health report's "configured" flags and the advertised model list;
- validation of a chat request body against `ChatCompletionRequest`.

Everything is a pure function over `seq<char>`, `seq<string>`, a `Json` value type and a small immutable `GatewayConfig` record.

- The gateway's one piece of mutable state, the default provider, is threaded through explicitly.
- `SwitchProvider` returns either `Rejected(400, "Invalid provider")` or `Switched` with the new record.
- Network calls are not made. A handler's result is the litellm call it would make: the model name, the messages and the API base it assigns.
- The client starts from the decoded body of a successful gateway reply.

Modules and files:

| file | module | models |
|---|---|---|
| wrappers.dfy | `Wrappers` | `Option`, `Result` |
| json.dfy | `Json` | JSON values, `dict.get` |
| strings.dfy | `Strings` | `str.isspace`, `str.split()`, `' '.join`, `str.replace`, `str.rstrip` |
| chunking.dfy | `Chunking` | `chunk_text` |
| office_format.dfy | `OfficeFormat` | `format_response_for_office` |
| llm_client.dfy | `LlmClient` | `LLMProvider`, `LLMRequest`, `LLMResponse`, `LLMClient` shaping |
| gateway.dfy | `Gateway` | `server.py` configuration, routing, switch, health, request validation |
| client_gateway.dfy | `ClientGateway` | a client-built request as the gateway reads and routes it |

Behaviour worth knowing about the client library:

- In html mode, `**bold**` becomes `<strong>bold<strong>`. The second `.replace('**', '</strong>')` can never match, because the first replace leaves no `**` behind (`OfficeFormat.HtmlOpensEveryBold`). The model keeps this behaviour as written.
- `chunk_text` rejoins each chunk's words with single spaces, so newlines, tabs and runs of spaces in the text do not survive chunking.

Behaviour worth knowing about the gateway:

- Provider resolution uses Python truthiness. An empty `provider` string in a request falls back to the default.
- An empty `OPENAI_API_KEY` or `AZURE_OPENAI_ENDPOINT` reads as "not configured".
- The start-up default provider comes from `LLM_PROVIDER` unchecked, so it may be any string. Only `switch_provider` restricts it to `local`, `openai` or `azure`.

- An unknown `switch_provider` name is answered with HTTP 400 and `{"detail": "Invalid provider"}`.
- An unknown request `provider` is not rejected by the gateway. The model name passes through `get_model_name` unchanged and goes to litellm without a prefix.
- An empty `messages` list passes validation.
- The health report reads the configuration only; it contacts no provider.
- The client cannot switch the gateway's provider. `LLMClient.switch_provider` sends the name as a JSON body, but the gateway's `switch_provider(provider: str)` reads it as a query parameter. FastAPI therefore refuses the request, and the client reports `False`. `ClientGateway.ClientProvidersAreGatewayProviders` states only that the names agree.

## Model

| member | source | states |
|---|---|---|
| `Strings.Split` | ai-services/shared/ai_utils.py:239 | every word `split()` yields is non-empty and holds no whitespace |
| `Strings.AsciiWhitespace` | ai-services/shared/ai_utils.py:239 | the whitespace `split()` splits on (`Strings.IsSpace`, Python's `str.isspace`) is, within ASCII, exactly `string.whitespace` and the four information separators; letters and digits never are |
| `Strings.SplitJoin` | ai-services/shared/ai_utils.py:250 | splitting the space-joined text of a list of words gives that list back |
| `Strings.SplitEmptyIffAllSpace` | ai-services/shared/ai_utils.py:239 | `split()` yields no words exactly when the text is empty or all whitespace |
| `Strings.Join` | ai-services/shared/ai_utils.py:250 | `' '.join` of no words is empty; otherwise the text opens with the first word and closes with the last |
| `Strings.ReplaceAll` | ai-services/shared/ai_utils.py:268-278 | `replace` scans left to right: a match at the front becomes the replacement, an unmatched first character is kept, and text shorter than the pattern is unchanged |
| `Strings.ReplaceAbsent` | ai-services/shared/ai_utils.py:272 | `replace` of a pattern that does not occur returns the text unchanged |
| `Strings.ReplacePairRemoves` | ai-services/shared/ai_utils.py:272 | after replacing `**` by text without `*`, no `**` is left |
| `Strings.ReplaceCharRemoves` | ai-services/shared/ai_utils.py:269 | after replacing a character by text without it, the character is gone |
| `Strings.ReplaceUntouchedPrefix` | ai-services/shared/ai_utils.py:270-272 | a prefix none of whose characters starts the pattern passes through `replace` unchanged |
| `Strings.ReplaceUntouchedSuffix` | ai-services/shared/ai_utils.py:270-272 | a suffix sharing no character with the pattern passes through `replace` unchanged |
| `Strings.ReplaceCharByNothing` | ai-services/shared/ai_utils.py:277-278 | replacing a one-character pattern by nothing deletes every occurrence of that character |
| `Strings.DeletePairsThenChars` | ai-services/shared/ai_utils.py:276-277 | deleting `**` before deleting `*` leaves the same text as deleting `*` alone |
| `Strings.WithoutTwice` | ai-services/shared/ai_utils.py:277-278 | deleting one set of characters and then another is deleting their union |
| `Strings.RStrip` | ai-services/shared/ai_utils.py:107 | `rstrip('/')` returns a prefix of its input that does not end in `/`, and everything cut off is `/` |
| `Chunking.CostOfJoin` | ai-services/shared/ai_utils.py:248-250 | the charge of a chunk (word lengths plus one each) is its joined text's length plus one |
| `Chunking.Pack` | ai-services/shared/ai_utils.py:247-258 | the packing loop emits the pending and remaining words in order, no empty chunk, multi-word chunks within budget, each chunk unable to take the next chunk's first word |
| `Chunking.ChunkWordsIsTheGreedyPacking` | ai-services/shared/ai_utils.py:236-260 | the chunks are a greedy packing of the words with budget `max_tokens*4`, and every greedy packing equals them |
| `Chunking.ChunkText` | ai-services/shared/ai_utils.py:236-260 | there is one chunk per word group, splitting each chunk gives back exactly its group, and each chunk is its words joined by single spaces (so newlines, tabs and runs of spaces in the text become one space) |
| `Chunking.GreedyPackingUnique` | ai-services/shared/ai_utils.py:247-258 | two packings that both meet the greedy description are equal |
| `Chunking.ChunkTextKeepsWords` | ai-services/shared/ai_utils.py:239-258 | splitting every chunk and concatenating gives exactly the input's words in order |
| `Chunking.ChunkTextNonEmpty` | ai-services/shared/ai_utils.py:249-260 | every chunk holds a word; the result is `[]` exactly for empty or whitespace-only text |
| `Chunking.ChunkTextWithinBudget` | ai-services/shared/ai_utils.py:245-255 | a chunk of two or more words is charged at most `max_tokens*4` and its text is shorter than that |
| `Chunking.ChunkTextGreedy` | ai-services/shared/ai_utils.py:249-252 | adding a chunk's first word to the chunk before it would exceed `max_tokens*4` |
| `Chunking.ChunkTextNoBudget` | ai-services/shared/ai_utils.py:245-252 | with `max_tokens <= 0` the chunks are exactly the words, one per chunk |
| `OfficeFormat.FormatPlain` | ai-services/shared/ai_utils.py:274-279 | plain mode returns the reply with every `*` and `#` deleted |
| `OfficeFormat.PlainStripsMarkup` | ai-services/shared/ai_utils.py:274-279 | plain formatting leaves no `*` or `#` and applying it twice equals applying it once |
| `OfficeFormat.HtmlBreaks` | ai-services/shared/ai_utils.py:268-269 | the conversion equals the scan `Breaks`, in which a blank line becomes `</p><p>` and any other newline `<br>`; no newline is left, and text without a newline is unchanged |
| `OfficeFormat.HtmlBreaksScan` | ai-services/shared/ai_utils.py:268-269 | for every text, replacing `\n\n` by `</p><p>` and then `\n` by `<br>` equals one left-to-right scan that turns each newline pair into `</p><p>`, each lone newline into `<br>` and keeps every other character |
| `OfficeFormat.FormatResponseForOffice` | ai-services/shared/ai_utils.py:262-281 | `plain` deletes every `*` and `#`; `html` gives a `<p>`…`</p>` text with no newline and no `**`; every other format name returns the reply unchanged |
| `OfficeFormat.PassThroughFormats` | ai-services/shared/ai_utils.py:264-281 | `markdown` and every unrecognised format return the reply unchanged |
| `OfficeFormat.FormatHtml` | ai-services/shared/ai_utils.py:266-273 | html output starts with `<p>`, ends with `</p>`, holds no newline and no `**` |
| `OfficeFormat.HtmlOpensEveryBold` | ai-services/shared/ai_utils.py:272 | html output is the wrapped break-converted text with every `**` turned into `<strong>`; the closing-tag replace never matches |
| `OfficeFormat.BoldKeepsWrapper` | ai-services/shared/ai_utils.py:270-272 | the bold replace leaves the `<p>` ... `</p>` wrapper in place |
| `OfficeFormat.BoldLeavesNoPair` | ai-services/shared/ai_utils.py:272 | after `**` becomes `<strong>`, replacing `**` by `</strong>` changes nothing |
| `OfficeFormat.HtmlHasNoNewline` | ai-services/shared/ai_utils.py:268-272 | no newline survives the paragraph and line-break conversion |
| `LlmClient.ProviderValuesDistinct` | ai-services/shared/ai_utils.py:12-15 | provider values are distinct, non-empty and never `"unknown"` |
| `LlmClient.NewClient` | ai-services/shared/ai_utils.py:106-107 | the stored gateway URL is the given URL minus its trailing `/` run, and does not end in `/` |
| `LlmClient.NewClientNormalises` | ai-services/shared/ai_utils.py:107 | normalising twice equals normalising once; an extra trailing `/` makes no difference |
| `LlmClient.RequestUrl` | ai-services/shared/ai_utils.py:117 | the request URL is the stored base followed directly by the endpoint |
| `LlmClient.RequestUrlJoinsCleanly` | ai-services/shared/ai_utils.py:117 | the request URL is the slash-free base followed directly by the endpoint, however many `/` the base was given with |
| `LlmClient.ChatPayload` | ai-services/shared/ai_utils.py:130-139 | the body holds exactly one message, the prompt as the user's turn, and a `provider` key iff the request names a provider |
| `LlmClient.ChatCompletionPost` | ai-services/shared/ai_utils.py:130-141 | the chat call posts to the client's stored base followed by `/v1/chat/completions`, with the prompt as the one user message and a `provider` key iff the request names one |
| `LlmClient.ChatPostFromBase` | ai-services/shared/ai_utils.py:106-141 | a client built from a base URL with any number of trailing `/` posts chat calls to that base followed directly by `/v1/chat/completions` |
| `LlmClient.ResponseProvider` | ai-services/shared/ai_utils.py:152 | the reported provider is the request's provider value, and `"unknown"` iff the request has none |
| `LlmClient.ReadReply` | ai-services/shared/ai_utils.py:144-156 | reading a reply succeeds iff it has the OpenAI shape, and then returns the first choice's message content, the reply's model, its usage and the first choice's finish reason (`null` read as absent), with the request's provider |
| `LlmClient.ReadReplyRoundTrip` | ai-services/shared/ai_utils.py:144-156 | reading any OpenAI-format reply returns exactly its content, model, usage and finish reason, whatever further keys it holds at the top level, in the first choice or in its message, and however many choices follow the first |
| `Gateway.LoadConfig` | ai-services/llm-gateway/server.py:49-55 | the default provider is `LLM_PROVIDER` unchecked, else `local`; the local URL is `LOCAL_LLM_URL`, else its default; the OpenAI key, Azure endpoint and Azure key are each set iff their variable is, and then hold its value |
| `Gateway.HealthFromEnvironment` | ai-services/llm-gateway/server.py:108-120 | for a process started with a given environment, OpenAI reads configured iff `OPENAI_API_KEY` is set and non-empty, Azure iff `AZURE_OPENAI_ENDPOINT` is, and the local URL is `LOCAL_LLM_URL` or its default |
| `Gateway.GetModelName` | ai-services/llm-gateway/server.py:86-106 | an unknown provider or model keeps the model name; `openai` never renames; `azure` names start `azure/`; `local` names are never generic names |
| `Gateway.GetModelNameLookup` | ai-services/llm-gateway/server.py:86-106 | a known provider and generic model map to the table entry; every other pair maps the model to itself |
| `Gateway.OpenAINamesUnchanged` | ai-services/llm-gateway/server.py:94-98 | for `openai` the model name is returned unchanged |
| `Gateway.AzureNamesPrefixed` | ai-services/llm-gateway/server.py:99-103 | for `azure` every known model maps to a name beginning `azure/` |
| `Gateway.ResolveProvider` | ai-services/llm-gateway/server.py:127 | the request's provider when set and non-empty, else the current default |
| `Gateway.TargetModel` | ai-services/llm-gateway/server.py:128-132 | for `local` the model is `ollama/` plus the mapped name; for any other provider the mapped name alone |
| `Gateway.OllamaPrefixOnlyForLocal` | ai-services/llm-gateway/server.py:128-132 | for a generic model, the target name starts `ollama/` iff the provider is `local` |
| `Gateway.ChatCompletions` | ai-services/llm-gateway/server.py:122-164 | the call uses the resolved provider's target model, passes the messages through, streams iff asked, passes `max_tokens` and `temperature` unchanged, and sets the local API base iff the provider is `local` |
| `Gateway.CreateEmbeddings` | ai-services/llm-gateway/server.py:170-190 | embeddings resolve the provider and model the same way and pass the input through |
| `Gateway.ChatAndEmbeddingsRouteAlike` | ai-services/llm-gateway/server.py:175-180 | chat and embedding requests with the same provider and model reach the same backend model and API base |
| `Gateway.SwitchProvider` | ai-services/llm-gateway/server.py:223-232 | the switch is rejected with 400 iff the name is not `local`, `openai` or `azure`; otherwise only the default changes, to exactly that name |
| `Gateway.RejectedSwitchChangesNothing` | ai-services/llm-gateway/server.py:226-227 | after a rejected switch the configuration and every routing decision are as before |
| `Gateway.SwitchThenRoute` | ai-services/llm-gateway/server.py:229-232 | after a successful switch a request without an override resolves to the new provider, and the reply names it |
| `Gateway.SwitchResponseBody` | ai-services/llm-gateway/server.py:227-232 | a rejected switch answers with its `detail` only; an accepted one with `status` `success` and the new provider |
| `Gateway.SwitchesInstallLastAccepted` | ai-services/llm-gateway/server.py:226-229 | after any sequence of switches the default is the last accepted name, or the start-up default if none was accepted; nothing else changes |
| `Gateway.SwitchesKeepDefaultKnown` | ai-services/llm-gateway/server.py:226-229 | from a known default, switches never leave the default outside the known providers |
| `Gateway.HealthCheck` | ai-services/llm-gateway/server.py:108-120 | `openai` reads configured iff a non-empty key is set; `azure` iff a non-empty endpoint is set |
| `Gateway.HealthIgnoresKeyAndDefault` | ai-services/llm-gateway/server.py:117-118 | the health report ignores the Azure key and is unchanged by any switch |
| `Gateway.ListedModelsAreMapped` | ai-services/llm-gateway/server.py:196-221 | every advertised model and provider pair has an entry in the mapping table |
| `Gateway.ParseMessages` | ai-services/llm-gateway/server.py:68-74 | a message list validates iff every item is an object with string `role` and `content`, and the messages keep their order |
| `Gateway.ParseChatRequest` | ai-services/llm-gateway/server.py:68-78 | a body validates iff every field it holds has its declared kind and `messages` is a list of messages; a missing `model`, `temperature`, `max_tokens`, `stream` or `provider` takes its default; a field that is present yields the body's value (`null` gives `None`, an integer `temperature` becomes a float), and the messages are the parse of the body's list |
| `Gateway.MessagesOnlyBodyTakesDefaults` | ai-services/llm-gateway/server.py:72-78 | a body holding only a list of messages validates to those messages with `gpt-3.5-turbo`, temperature 0.7, no max tokens, no streaming and no provider |
| `ClientGateway.WireProvider` | ai-services/shared/ai_utils.py:138-139 | a provider name goes on the wire iff the request names a provider |
| `ClientGateway.ClientProvidersAreGatewayProviders` | ai-services/llm-gateway/server.py:226 | the client's provider values are exactly the names the gateway's switch accepts |
| `ClientGateway.ClientPayloadValidates` | ai-services/llm-gateway/server.py:72-78 | the body the client builds validates as its model, the prompt as the one user message, its temperature, max tokens, stream flag and provider |
| `ClientGateway.ClientRequestRouting` | ai-services/llm-gateway/server.py:127-133 | a client request goes to the provider it names, else to the gateway's current default, with that provider's target model, and its `max_tokens` and `temperature` reach the completion call unchanged |

## Left out

- HTTP transport: the aiohttp session, the non-200 exception in `_make_request` and `close`. The client model starts from a decoded successful reply.
- `response_time`: it depends on the clock.
- Temperature: a `real` that is passed along (`Gateway.ChatCompletions` states it reaches the call unchanged) and never computed with; floating-point rounding is not modelled.
- `PromptTemplates` and `OfficeIntegrationHelper`: Python string formatting and one-line delegations to `chat_completion`.
- `LLMClient.get_embeddings` and `LLMClient.switch_provider`: HTTP calls outside the shaping logic.
- `LLMRequest.context`: never read when a chat call is built.
- The litellm calls (`acompletion`, `embedding`), their results and SSE streaming: foreign library calls. The handlers return the call they would make.
- The litellm module-level configuration: keys and `api_base`. The chat and embeddings handlers record the `api_base` they assign. That the assignment persists into later requests is not modelled.
- The `except Exception` → HTTP 500 path of the handlers: nothing in the modelled logic raises.
- FastAPI, CORS, uvicorn start-up and logging.
- `Gateway.ParseChatRequest`: checks strict JSON kinds only. Pydantic's lax coercions are not modelled, such as numeric strings or whole floats accepted as integers, or strings accepted as booleans.
- `Strings.ReplaceAll`: requires a non-empty pattern. Every pattern in the source is a non-empty literal; Python's empty-pattern semantics are not modelled.
- `ai-services/local-llm/server.py` and `scripts/setup-ai.py`: process and network management, not logic.

=== FILE: chunking.dfy ===
/** `chunk_text`: splitting a long text into word-aligned chunks that fit a token budget,
    estimated at four characters per token. */
module Chunking {
  import opened Strings

  /** The characters a run of words is charged: each word's length plus one for a space. */
  function Cost(ws: seq<string>): nat {
    if |ws| == 0 then 0 else |ws[0]| + 1 + Cost(ws[1..])
  }

  lemma {:induction false} CostAppend(ws: seq<string>, w: string)
    ensures Cost(ws + [w]) == Cost(ws) + |w| + 1
    decreases |ws|
  {
    if |ws| == 0 {
      assert ws + [w] == [w];
    } else {
      assert (ws + [w])[1..] == ws[1..] + [w];
      CostAppend(ws[1..], w);
    }
  }

  /** Every word is charged at least its separating space. */
  lemma {:induction false} CostAtLeastCount(ws: seq<string>)
    ensures Cost(ws) >= |ws|
    decreases |ws|
  {
    if |ws| > 0 {
      CostAtLeastCount(ws[1..]);
    }
  }

  /** A chunk's charge is the length of its space-joined text plus one. */
  lemma {:induction false} CostOfJoin(ws: seq<string>)
    requires |ws| > 0
    ensures Cost(ws) == |Join(ws, " ")| + 1
    decreases |ws|
  {
    if |ws| > 1 {
      CostOfJoin(ws[1..]);
    }
  }

  /** The character budget for `max_tokens` tokens (no clamping: a non-positive budget is kept). */
  function MaxChars(maxTokens: int): int {
    maxTokens * 4
  }

  /** No chunk is empty. */
  predicate NoEmptyChunk(chunks: seq<seq<string>>) {
    forall i :: 0 <= i < |chunks| ==> |chunks[i]| > 0
  }

  /** Several words share a chunk only when their charge fits the budget. */
  predicate MultiWordWithinBudget(chunks: seq<seq<string>>, maxChars: int) {
    forall i :: 0 <= i < |chunks| && |chunks[i]| >= 2 ==> Cost(chunks[i]) <= maxChars
  }

  /** Chunk `prev` could not have taken the first word of `next` within the budget. */
  predicate CannotTake(prev: seq<string>, next: seq<string>, maxChars: int) {
    |next| > 0 && Cost(prev + [next[0]]) > maxChars
  }

  /** No chunk could have taken the first word of the chunk after it. */
  predicate NextWordWouldOverflow(chunks: seq<seq<string>>, maxChars: int) {
    forall i :: 0 < i < |chunks| ==> CannotTake(chunks[i - 1], chunks[i], maxChars)
  }

  /** The shape every greedy packing has, whatever words it packs. */
  predicate GreedyShape(chunks: seq<seq<string>>, maxChars: int) {
    NoEmptyChunk(chunks) && MultiWordWithinBudget(chunks, maxChars) && NextWordWouldOverflow(chunks, maxChars)
  }

  /** The reference description of greedy packing, independent of any loop: the chunks hold
      `words` in order, none is empty, several words share a chunk only within the budget, and
      no chunk could have taken the next chunk's first word. */
  predicate IsGreedyPacking(words: seq<string>, maxChars: int, chunks: seq<seq<string>>) {
    Flatten(chunks) == words && GreedyShape(chunks, maxChars)
  }

  /** A chunk placed in front of a greedy packing keeps the shape when it is non-empty, within
      budget, and unable to take the next chunk's first word. */
  lemma ConsChunk(c: seq<string>, rest: seq<seq<string>>, maxChars: int)
    requires GreedyShape(rest, maxChars)
    requires |c| > 0 && (|c| >= 2 ==> Cost(c) <= maxChars)
    requires |rest| > 0 ==> CannotTake(c, rest[0], maxChars)
    ensures GreedyShape([c] + rest, maxChars)
  {
    var chunks := [c] + rest;
    assert NoEmptyChunk(chunks) && MultiWordWithinBudget(chunks, maxChars) by {
      forall i | 0 < i < |chunks|
        ensures chunks[i] == rest[i - 1]
      {
      }
    }
    assert NextWordWouldOverflow(chunks, maxChars) by {
      forall i | 0 < i < |chunks|
        ensures CannotTake(chunks[i - 1], chunks[i], maxChars)
      {
        if i == 1 {
          assert chunks[0] == c && chunks[1] == rest[0];
        } else {
          var j := i - 1;
          assert chunks[i - 1] == rest[j - 1] && chunks[i] == rest[j];
        }
      }
    }
  }

  /** Dropping the first chunk of a greedy packing keeps the shape. */
  lemma TailChunks(chunks: seq<seq<string>>, maxChars: int)
    requires GreedyShape(chunks, maxChars) && |chunks| > 0
    ensures GreedyShape(chunks[1..], maxChars)
  {
    var rest := chunks[1..];
    forall i | 0 < i < |rest|
      ensures CannotTake(rest[i - 1], rest[i], maxChars)
    {
      assert rest[i - 1] == chunks[i] && rest[i] == chunks[i + 1];
    }
  }

  /** The packing loop of `chunk_text`, from the state where `current` is the chunk being
      filled and `words` are still to be placed. `chunk_text`'s `current_length` is always
      `Cost(current)`, so it is not carried separately. A word joins the current chunk unless
      its charge would push the chunk past `maxChars` and the chunk already holds a word. */
  function Pack(words: seq<string>, maxChars: int, current: seq<string>): (chunks: seq<seq<string>>)
    requires |current| >= 2 ==> Cost(current) <= maxChars
    ensures Flatten(chunks) == current + words
    ensures GreedyShape(chunks, maxChars)
    ensures |current| > 0 ==> |chunks| > 0 && current <= chunks[0]
    decreases |words|
  {
    if |words| == 0 then
      if |current| > 0 then
        assert Flatten([current]) == current + Flatten<string>([]);
        [current]
      else []
    else
      var word := words[0];
      CostAppend(current, word);
      assert words == [word] + words[1..];
      if Cost(current) + |word| + 1 > maxChars && |current| > 0 then
        var rest := Pack(words[1..], maxChars, [word]);
        assert ([current] + rest)[1..] == rest;
        ConsChunk(current, rest, maxChars);
        [current] + rest
      else
        Pack(words[1..], maxChars, current + [word])
  }

  /** The charge of a run of words grows with the run. */
  lemma {:induction false} CostPrefixMono(ws: seq<string>, k: nat)
    requires k <= |ws|
    ensures Cost(ws[..k]) <= Cost(ws)
    decreases k
  {
    if k > 0 {
      CostPrefixMono(ws[1..], k - 1);
      assert ws[..k][1..] == ws[1..][..k - 1];
    }
  }

  /** In a packing, the first chunk opens the word sequence and the rest follows it. */
  lemma FlattenHead(words: seq<string>, chunks: seq<seq<string>>)
    requires Flatten(chunks) == words && |chunks| > 0
    ensures chunks[0] <= words
    ensures words[|chunks[0]|..] == Flatten(chunks[1..])
  {
  }

  /** When the first chunk does not hold every word, a second chunk starts at the next word. */
  lemma NextChunkStart(words: seq<string>, chunks: seq<seq<string>>)
    requires Flatten(chunks) == words && |chunks| > 0
    requires forall i :: 0 <= i < |chunks| ==> |chunks[i]| > 0
    requires |chunks[0]| < |words|
    ensures |chunks| > 1 && chunks[1][0] == words[|chunks[0]|]
  {
    FlattenHead(words, chunks);
    FlattenHead(words[|chunks[0]|..], chunks[1..]);
  }

  /** A first chunk longer than `k` words is charged at least as much as the first `k + 1` words. */
  lemma PrefixCostBound(words: seq<string>, first: seq<string>, k: nat)
    requires first <= words
    ensures k < |first| ==> Cost(words[..k + 1]) <= Cost(first)
  {
    if k < |first| {
      CostPrefixMono(first, k + 1);
      assert first[..k + 1] == words[..k + 1];
    }
  }

  /** In a greedy packing, the first chunk plus the word after it exceeds the budget. */
  lemma NextWordOverflows(words: seq<string>, maxChars: int, chunks: seq<seq<string>>)
    requires IsGreedyPacking(words, maxChars, chunks) && |chunks| > 0
    ensures |chunks[0]| < |words| ==> Cost(words[..|chunks[0]| + 1]) > maxChars
  {
    if |chunks[0]| < |words| {
      NextChunkStart(words, chunks);
      FlattenHead(words, chunks);
      assert chunks[0] + [chunks[1][0]] == words[..|chunks[0]| + 1];
    }
  }

  /** Two greedy packings of the same words start with chunks of the same size. */
  lemma GreedyFirstChunkNoLonger(words: seq<string>, maxChars: int, a: seq<seq<string>>, b: seq<seq<string>>)
    requires IsGreedyPacking(words, maxChars, a) && IsGreedyPacking(words, maxChars, b)
    requires |a| > 0 && |b| > 0
    ensures |a[0]| <= |b[0]|
  {
    FlattenHead(words, a);
    PrefixCostBound(words, a[0], |b[0]|);
    NextWordOverflows(words, maxChars, b);
  }

  /** Greedy packing is unique: any packing meeting the reference description is the one
      `chunk_text` computes. */
  lemma {:induction false} GreedyPackingUnique(words: seq<string>, maxChars: int, a: seq<seq<string>>, b: seq<seq<string>>)
    requires IsGreedyPacking(words, maxChars, a) && IsGreedyPacking(words, maxChars, b)
    ensures a == b
    decreases |a|
  {
    if |a| == 0 || |b| == 0 {
      if |a| > 0 { FlattenHead(words, a); }
      if |b| > 0 { FlattenHead(words, b); }
    } else {
      GreedyFirstChunkNoLonger(words, maxChars, a, b);
      GreedyFirstChunkNoLonger(words, maxChars, b, a);
      FlattenHead(words, a);
      FlattenHead(words, b);
      var rest := words[|a[0]|..];
      assert a[0] == words[..|a[0]|] == b[0];
      TailChunks(a, maxChars);
      TailChunks(b, maxChars);
      GreedyPackingUnique(rest, maxChars, a[1..], b[1..]);
      assert a == [a[0]] + a[1..];
      assert b == [b[0]] + b[1..];
    }
  }

  /** The word groups of `chunk_text` are the one greedy packing of the text's words. */
  lemma {:induction false} ChunkWordsIsTheGreedyPacking(text: string, maxTokens: int, chunks: seq<seq<string>>)
    ensures IsGreedyPacking(Split(text), maxTokens * 4, ChunkWords(text, maxTokens))
    ensures IsGreedyPacking(Split(text), maxTokens * 4, chunks) ==> chunks == ChunkWords(text, maxTokens)
  {
    if IsGreedyPacking(Split(text), maxTokens * 4, chunks) {
      GreedyPackingUnique(Split(text), maxTokens * 4, chunks, ChunkWords(text, maxTokens));
    }
  }

  /** The words of `text`, grouped as `chunk_text` groups them. */
  function ChunkWords(text: string, maxTokens: int): seq<seq<string>> {
    Pack(Split(text), MaxChars(maxTokens), [])
  }

  /** `chunk_text(text, max_tokens)`: each group of words joined by single spaces, so that
      splitting a chunk gives back exactly its group. */
  function ChunkText(text: string, maxTokens: int := 4000): (chunks: seq<string>)
    ensures |chunks| == |ChunkWords(text, maxTokens)|
    ensures forall i :: 0 <= i < |chunks| ==> Split(chunks[i]) == ChunkWords(text, maxTokens)[i]
    ensures forall i :: 0 <= i < |chunks| ==> Join(Split(chunks[i]), " ") == chunks[i]
  {
    var groups := ChunkWords(text, maxTokens);
    GroupsReadBack(groups);
    seq(|groups|, i requires 0 <= i < |groups| => Join(groups[i], " "))
  }

  /** When the groups together hold only words, each group joined by spaces splits back into
      itself. */
  lemma {:induction false} GroupsReadBack(groups: seq<seq<string>>)
    requires AllWords(Flatten(groups))
    ensures forall i :: 0 <= i < |groups| ==> Split(Join(groups[i], " ")) == groups[i]
  {
    forall i | 0 <= i < |groups|
      ensures Split(Join(groups[i], " ")) == groups[i]
    {
      forall j | 0 <= j < |groups[i]|
        ensures IsWord(groups[i][j])
      {
        FlattenMember(groups, i, j);
      }
      SplitJoin(groups[i]);
    }
  }

  /** The words of each chunk, as `split()` reads them back. */
  function ChunkSplits(chunks: seq<string>): (r: seq<seq<string>>)
    ensures |r| == |chunks|
    ensures forall i :: 0 <= i < |r| ==> r[i] == Split(chunks[i])
  {
    seq(|chunks|, i requires 0 <= i < |chunks| => Split(chunks[i]))
  }

  lemma {:induction false} FlattenMember<T>(xss: seq<seq<T>>, i: nat, j: nat)
    requires i < |xss| && j < |xss[i]|
    ensures xss[i][j] in Flatten(xss)
    decreases i
  {
    if i > 0 {
      FlattenMember(xss[1..], i - 1, j);
    }
  }

  /** Every group holds only words of `text`, so re-splitting a chunk recovers its group. */
  lemma ChunkSplitsAreGroups(text: string, maxTokens: int)
    ensures ChunkSplits(ChunkText(text, maxTokens)) == ChunkWords(text, maxTokens)
  {
  }

  /** Reading the chunks back word by word gives exactly the words of the input, in order:
      nothing is lost, duplicated or reordered. */
  lemma {:induction false} ChunkTextKeepsWords(text: string, maxTokens: int)
    ensures Flatten(ChunkSplits(ChunkText(text, maxTokens))) == Split(text)
  {
    ChunkSplitsAreGroups(text, maxTokens);
  }

  /** Every chunk holds at least one word, and there are no chunks exactly when the text is
      empty or whitespace only. */
  lemma ChunkTextNonEmpty(text: string, maxTokens: int)
    ensures forall i :: 0 <= i < |ChunkText(text, maxTokens)| ==> |Split(ChunkText(text, maxTokens)[i])| > 0
    ensures ChunkText(text, maxTokens) == [] <==> AllSpace(text)
  {
    ChunkSplitsAreGroups(text, maxTokens);
    SplitEmptyIffAllSpace(text);
    var groups := ChunkWords(text, maxTokens);
    if groups == [] {
      assert Split(text) == Flatten(groups) == [];
    } else {
      assert |groups[0]| > 0;
      assert Flatten(groups) == groups[0] + Flatten(groups[1..]);
    }
  }

  /** A chunk of two or more words is charged at most `max_tokens * 4`: its text is shorter
      than the budget. Only a chunk made of one oversize word can exceed it. */
  lemma {:induction false} ChunkTextWithinBudget(text: string, maxTokens: int)
    ensures forall i :: 0 <= i < |ChunkText(text, maxTokens)| && |Split(ChunkText(text, maxTokens)[i])| >= 2 ==>
      Cost(Split(ChunkText(text, maxTokens)[i])) <= maxTokens * 4
      && |ChunkText(text, maxTokens)[i]| < maxTokens * 4
  {
    ChunkSplitsAreGroups(text, maxTokens);
    var groups := ChunkWords(text, maxTokens);
    forall i | 0 <= i < |groups| {
      CostOfJoin(groups[i]);
    }
  }

  /** Packing is greedy: the first word of each chunk would not have fitted into the chunk
      before it. */
  lemma ChunkTextGreedy(text: string, maxTokens: int)
    ensures forall i :: 0 < i < |ChunkText(text, maxTokens)| ==>
      var words := ChunkSplits(ChunkText(text, maxTokens));
      |words[i]| > 0 && Cost(words[i - 1] + [words[i][0]]) > maxTokens * 4
  {
    ChunkSplitsAreGroups(text, maxTokens);
  }

  /** With no positive budget every word is a chunk of its own. */
  lemma {:induction false} ChunkTextNoBudget(text: string, maxTokens: int)
    requires maxTokens <= 0
    ensures ChunkText(text, maxTokens) == Split(text)
  {
    ChunkSplitsAreGroups(text, maxTokens);
    var groups := ChunkWords(text, maxTokens);
    forall i | 0 <= i < |groups|
      ensures |groups[i]| == 1
    {
      CostAtLeastCount(groups[i]);
    }
    SingletonGroups(groups);
  }

  lemma {:induction false} SingletonGroups(groups: seq<seq<string>>)
    requires forall i :: 0 <= i < |groups| ==> |groups[i]| == 1
    ensures Flatten(groups) == seq(|groups|, i requires 0 <= i < |groups| => Join(groups[i], " "))
    decreases |groups|
  {
    if |groups| > 0 {
      SingletonGroups(groups[1..]);
      assert groups[0] == [groups[0][0]];
    }
  }
}

=== FILE: client_gateway.dfy ===
/** The client and the gateway together: what the gateway makes of a chat request built by the
    shared client. */
module ClientGateway {
  import opened Wrappers
  import opened Json
  import LlmClient
  import Gateway

  /** The provider name a client request puts on the wire, if any. */
  function WireProvider(req: LlmClient.LLMRequest): (name: Option<string>)
    ensures name.Some? <==> req.provider.Some?
  {
    if req.provider.Some? then Some(req.provider.value.Value()) else None
  }

  /** The client's provider names are exactly the names the gateway accepts as a default. */
  lemma ClientProvidersAreGatewayProviders()
    ensures forall p: LlmClient.LLMProvider :: p.Value() in Gateway.Providers
    ensures forall name :: name in Gateway.Providers ==> exists p: LlmClient.LLMProvider :: p.Value() == name
  {
    forall name | name in Gateway.Providers
      ensures exists p: LlmClient.LLMProvider :: p.Value() == name
    {
      if name == "local" {
        assert LlmClient.LLMProvider.Local.Value() == name;
      } else if name == "openai" {
        assert LlmClient.LLMProvider.OpenAI.Value() == name;
      } else {
        assert LlmClient.LLMProvider.Azure.Value() == name;
      }
    }
  }

  /** The request the gateway validates out of a client's body. */
  function GatewayView(req: LlmClient.LLMRequest): Gateway.ChatCompletionRequest {
    Gateway.ChatCompletionRequest(
      req.model,
      [Gateway.ChatMessage("user", req.prompt)],
      Some(req.temperature),
      req.maxTokens,
      Some(req.stream),
      WireProvider(req))
  }

  /** Every body the client posts passes the gateway's validation, and carries the prompt as
      the single user message along with the client's settings. */
  lemma ClientPayloadValidates(req: LlmClient.LLMRequest)
    ensures Gateway.ParseChatRequest(LlmClient.ChatPayload(req)) == Success(GatewayView(req))
  {
    var body := LlmClient.ChatPayload(req);
    var items := body.fields["messages"].items;
    assert items == [LlmClient.UserMessage(req.prompt)];
    assert Gateway.ParseMessage(items[0]) == Success(Gateway.ChatMessage("user", req.prompt));
    assert items[1..] == [];
    assert Gateway.ParseMessages(items[1..]) == Success([]);
    assert [Gateway.ChatMessage("user", req.prompt)] + [] == [Gateway.ChatMessage("user", req.prompt)];
    assert Gateway.ParseMessages(items) == Success([Gateway.ChatMessage("user", req.prompt)]);
  }

  /** A client request is served by the provider it names, or by the gateway's current default
      when it names none, with that provider's model name. */
  lemma ClientRequestRouting(cfg: Gateway.GatewayConfig, req: LlmClient.LLMRequest)
    ensures var provider := if req.provider.Some? then req.provider.value.Value() else cfg.defaultProvider;
      && Gateway.ParseChatRequest(LlmClient.ChatPayload(req)).Success?
      && Gateway.ChatCompletions(cfg, Gateway.ParseChatRequest(LlmClient.ChatPayload(req)).value).model
         == Gateway.TargetModel(provider, req.model)
      && Gateway.ChatCompletions(cfg, Gateway.ParseChatRequest(LlmClient.ChatPayload(req)).value).maxTokens
         == req.maxTokens
      && Gateway.ChatCompletions(cfg, Gateway.ParseChatRequest(LlmClient.ChatPayload(req)).value).temperature
         == Some(req.temperature)
  {
    ClientPayloadValidates(req);
    if req.provider.Some? {
      LlmClient.ProviderValuesDistinct(req.provider.value, req.provider.value);
    }
  }
}

=== FILE: gateway.dfy ===
/** The LLM gateway server: configuration, model-name mapping, provider resolution, the
    provider switch and the health report. The litellm calls are not made: each handler's
    result is the call it would make. */
module Gateway {
  import opened Wrappers
  import opened Json

  /** `GatewayConfig`, read from the environment at start-up. Only `defaultProvider` ever
      changes afterwards. */
  datatype GatewayConfig = GatewayConfig(
    defaultProvider: string,
    localLlmUrl: string,
    openaiApiKey: Option<string>,
    azureOpenaiEndpoint: Option<string>,
    azureOpenaiKey: Option<string>)

  /** `os.getenv(name)`. */
  function GetEnv(env: map<string, string>, name: string): Option<string> {
    if name in env then Some(env[name]) else None
  }

  /** `GatewayConfig.__init__`: the provider and local URL fall back to defaults; the provider
      name is taken as given, not checked against the known providers. */
  function LoadConfig(env: map<string, string>): (cfg: GatewayConfig)
    ensures "LLM_PROVIDER" !in env ==> cfg.defaultProvider == "local"
    ensures "LLM_PROVIDER" in env ==> cfg.defaultProvider == env["LLM_PROVIDER"]
    ensures "LOCAL_LLM_URL" !in env ==> cfg.localLlmUrl == "http://localhost:11434"
    ensures "LOCAL_LLM_URL" in env ==> cfg.localLlmUrl == env["LOCAL_LLM_URL"]
    ensures cfg.openaiApiKey.Some? <==> "OPENAI_API_KEY" in env
    ensures "OPENAI_API_KEY" in env ==> cfg.openaiApiKey.value == env["OPENAI_API_KEY"]
    ensures cfg.azureOpenaiEndpoint.Some? <==> "AZURE_OPENAI_ENDPOINT" in env
    ensures "AZURE_OPENAI_ENDPOINT" in env ==> cfg.azureOpenaiEndpoint.value == env["AZURE_OPENAI_ENDPOINT"]
    ensures cfg.azureOpenaiKey.Some? <==> "AZURE_OPENAI_KEY" in env
    ensures "AZURE_OPENAI_KEY" in env ==> cfg.azureOpenaiKey.value == env["AZURE_OPENAI_KEY"]
  {
    GatewayConfig(
      GetEnv(env, "LLM_PROVIDER").GetOr("local"),
      GetEnv(env, "LOCAL_LLM_URL").GetOr("http://localhost:11434"),
      GetEnv(env, "OPENAI_API_KEY"),
      GetEnv(env, "AZURE_OPENAI_ENDPOINT"),
      GetEnv(env, "AZURE_OPENAI_KEY"))
  }

  /** Python truthiness of an optional string: set and non-empty. */
  predicate Truthy(o: Option<string>) {
    o.Some? && |o.value| > 0
  }

  /** The providers `switch_provider` accepts. */
  const Providers: set<string> := {"local", "openai", "azure"}

  /** The generic model names clients ask for. */
  const GenericModels: set<string> := {"gpt-3.5-turbo", "gpt-4", "text-embedding-ada-002"}

  /** The rows of the table in `get_model_name`: generic name to provider-specific name. */
  const LocalModels: map<string, string> := map[
    "gpt-3.5-turbo" := "llama2",
    "gpt-4" := "llama2:70b",
    "text-embedding-ada-002" := "nomic-embed-text"]

  const OpenAIModels: map<string, string> := map[
    "gpt-3.5-turbo" := "gpt-3.5-turbo",
    "gpt-4" := "gpt-4",
    "text-embedding-ada-002" := "text-embedding-ada-002"]

  const AzureModels: map<string, string> := map[
    "gpt-3.5-turbo" := "azure/gpt-35-turbo",
    "gpt-4" := "azure/gpt-4",
    "text-embedding-ada-002" := "azure/text-embedding-ada-002"]

  /** The table in `get_model_name`, keyed by provider. */
  const ProviderModels: map<string, map<string, string>> := map[
    "local" := LocalModels,
    "openai" := OpenAIModels,
    "azure" := AzureModels]

  /** `get_model_name`: `provider_models.get(provider, {}).get(model, model)`. */
  function GetModelName(provider: string, model: string): (name: string)
    ensures !(provider in Providers && model in GenericModels) ==> name == model
    ensures provider == "openai" ==> name == model
    ensures provider == "azure" && model in GenericModels ==> "azure/" <= name
    ensures provider == "local" && model in GenericModels ==> name !in GenericModels
  {
    var table := if provider in ProviderModels then ProviderModels[provider] else map[];
    if model in table then table[model] else model
  }

  /** A known provider and generic model map to the table entry; any other pair maps the model
      to itself. */
  lemma GetModelNameLookup(provider: string, model: string)
    ensures provider in Providers && model in GenericModels ==>
      provider in ProviderModels && model in ProviderModels[provider]
      && GetModelName(provider, model) == ProviderModels[provider][model]
    ensures !(provider in Providers && model in GenericModels) ==> GetModelName(provider, model) == model
  {
    assert ProviderModels.Keys == Providers;
    assert LocalModels.Keys == GenericModels;
    assert OpenAIModels.Keys == GenericModels;
    assert AzureModels.Keys == GenericModels;
  }

  /** OpenAI names are the generic names: the mapping is the identity for `"openai"`. */
  lemma OpenAINamesUnchanged(model: string)
    ensures GetModelName("openai", model) == model
  {
    assert ProviderModels["openai"] == OpenAIModels;
    assert OpenAIModels.Keys == GenericModels;
  }

  /** Every known model maps to an `azure/` deployment name for `"azure"`. */
  lemma AzureNamesPrefixed(model: string)
    requires model in GenericModels
    ensures "azure/" <= GetModelName("azure", model)
  {
    assert ProviderModels["azure"] == AzureModels;
    assert AzureModels.Keys == GenericModels;
  }

  /** `request.provider or config.default_provider`: an absent or empty override falls back to
      the process default. */
  function ResolveProvider(requested: Option<string>, cfg: GatewayConfig): (provider: string)
    ensures Truthy(requested) ==> provider == requested.value
    ensures !Truthy(requested) ==> provider == cfg.defaultProvider
  {
    if Truthy(requested) then requested.value else cfg.defaultProvider
  }

  /** The model name handed to litellm: local models are addressed through Ollama. */
  function TargetModel(provider: string, model: string): (name: string)
    ensures provider == "local" ==> name == "ollama/" + GetModelName(provider, model)
    ensures provider != "local" ==> name == GetModelName(provider, model)
  {
    var mapped := GetModelName(provider, model);
    if provider == "local" then "ollama/" + mapped else mapped
  }

  /** Only the local provider's names carry the Ollama prefix, for the generic models. */
  lemma OllamaPrefixOnlyForLocal(provider: string, model: string)
    requires model in GenericModels
    ensures "ollama/" <= TargetModel(provider, model) <==> provider == "local"
  {
    GetModelNameLookup(provider, model);
    if provider != "local" {
      var name := TargetModel(provider, model);
      assert |name| > 0 && name[0] != 'o';
    }
  }

  /** One chat message, as the request body carries it. */
  datatype ChatMessage = ChatMessage(role: string, content: string)

  /** `ChatCompletionRequest` after validation; `None` stands for an explicit JSON `null`. */
  datatype ChatCompletionRequest = ChatCompletionRequest(
    model: string,
    messages: seq<ChatMessage>,
    temperature: Option<real>,
    maxTokens: Option<int>,
    stream: Option<bool>,
    provider: Option<string>)

  /** The completion call `chat_completions` makes. `apiBase` is the value the handler assigns
      to litellm's base URL, if it assigns one. */
  datatype CompletionCall = CompletionCall(
    model: string,
    messages: seq<ChatMessage>,
    temperature: Option<real>,
    maxTokens: Option<int>,
    stream: bool,
    apiBase: Option<string>)

  /** `chat_completions`: resolve the provider, map the model, pass the messages through. */
  function ChatCompletions(cfg: GatewayConfig, req: ChatCompletionRequest): (call: CompletionCall)
    ensures call.model == TargetModel(ResolveProvider(req.provider, cfg), req.model)
    ensures call.messages == req.messages
    ensures call.stream <==> req.stream == Some(true)
    ensures call.maxTokens == req.maxTokens && call.temperature == req.temperature
    ensures call.apiBase.Some? <==> ResolveProvider(req.provider, cfg) == "local"
    ensures call.apiBase.Some? ==> call.apiBase.value == cfg.localLlmUrl
  {
    var provider := ResolveProvider(req.provider, cfg);
    CompletionCall(
      TargetModel(provider, req.model),
      req.messages,
      req.temperature,
      req.maxTokens,
      req.stream == Some(true),
      if provider == "local" then Some(cfg.localLlmUrl) else None)
  }

  /** The `input` of an embedding request: one text or a list of texts. */
  datatype EmbeddingInput = Text(text: string) | Texts(texts: seq<string>)

  datatype EmbeddingRequest = EmbeddingRequest(
    input: EmbeddingInput,
    model: string := "text-embedding-ada-002",
    provider: Option<string> := None)

  /** The embedding call `create_embeddings` makes. */
  datatype EmbeddingCall = EmbeddingCall(model: string, input: EmbeddingInput, apiBase: Option<string>)

  /** `create_embeddings`: the same provider resolution and model mapping as chat. */
  function CreateEmbeddings(cfg: GatewayConfig, req: EmbeddingRequest): (call: EmbeddingCall)
    ensures call.model == TargetModel(ResolveProvider(req.provider, cfg), req.model)
    ensures call.input == req.input
    ensures call.apiBase.Some? <==> ResolveProvider(req.provider, cfg) == "local"
  {
    var provider := ResolveProvider(req.provider, cfg);
    EmbeddingCall(
      TargetModel(provider, req.model),
      req.input,
      if provider == "local" then Some(cfg.localLlmUrl) else None)
  }

  /** Chat and embedding requests naming the same provider and model reach the same backend
      model. */
  lemma ChatAndEmbeddingsRouteAlike(cfg: GatewayConfig, chat: ChatCompletionRequest, emb: EmbeddingRequest)
    requires chat.provider == emb.provider && chat.model == emb.model
    ensures ChatCompletions(cfg, chat).model == CreateEmbeddings(cfg, emb).model
    ensures ChatCompletions(cfg, chat).apiBase == CreateEmbeddings(cfg, emb).apiBase
  {
  }

  /** What `switch_provider` does: reject with an HTTP error, or install the new default. */
  datatype SwitchOutcome =
    | Rejected(statusCode: nat, detail: string)
    | Switched(config: GatewayConfig, provider: string)

  /** `switch_provider`: only a known provider becomes the default; anything else is an
      HTTP 400 and the configuration stays as it was. */
  function SwitchProvider(cfg: GatewayConfig, provider: string): (out: SwitchOutcome)
    ensures out.Rejected? <==> provider !in Providers
    ensures out.Rejected? ==> out.statusCode == 400 && out.detail == "Invalid provider"
    ensures out.Switched? ==> out.provider == provider && out.config == cfg.(defaultProvider := provider)
  {
    if provider !in Providers then Rejected(400, "Invalid provider")
    else Switched(cfg.(defaultProvider := provider), provider)
  }

  /** The process configuration once a switch request has been handled. */
  function StateAfter(cfg: GatewayConfig, out: SwitchOutcome): GatewayConfig {
    if out.Switched? then out.config else cfg
  }

  /** The response body a switch request gets: the error detail, or the success status with
      the new provider. */
  function SwitchResponseBody(out: SwitchOutcome): (body: Json)
    ensures body.JObject?
    ensures "detail" in body.fields <==> out.Rejected?
    ensures "status" in body.fields <==> out.Switched?
    ensures out.Rejected? ==> body.fields["detail"] == JStr(out.detail)
    ensures out.Switched? ==> body.fields["status"] == JStr("success") && "provider" in body.fields && body.fields["provider"] == JStr(out.provider)
  {
    match out
    case Rejected(_, detail) => JObject(map["detail" := JStr(detail)])
    case Switched(_, provider) => JObject(map["status" := JStr("success"), "provider" := JStr(provider)])
  }

  /** A rejected switch leaves every request routed as before. */
  lemma RejectedSwitchChangesNothing(cfg: GatewayConfig, provider: string, requested: Option<string>)
    requires provider !in Providers
    ensures StateAfter(cfg, SwitchProvider(cfg, provider)) == cfg
    ensures ResolveProvider(requested, StateAfter(cfg, SwitchProvider(cfg, provider))) == ResolveProvider(requested, cfg)
  {
  }

  /** After a successful switch, a request without an override goes to the new provider, and
      the reply names it. */
  lemma SwitchThenRoute(cfg: GatewayConfig, provider: string, requested: Option<string>)
    requires provider in Providers
    requires !Truthy(requested)
    ensures ResolveProvider(requested, StateAfter(cfg, SwitchProvider(cfg, provider))) == provider
    ensures SwitchResponseBody(SwitchProvider(cfg, provider)).fields["provider"] == JStr(provider)
  {
  }

  /** Handling a sequence of switch requests in order. */
  function ApplySwitches(cfg: GatewayConfig, names: seq<string>): GatewayConfig
    decreases |names|
  {
    if |names| == 0 then cfg
    else ApplySwitches(StateAfter(cfg, SwitchProvider(cfg, names[0])), names[1..])
  }

  /** The last name in `names` that is a known provider, if any. */
  function LastAccepted(names: seq<string>): (last: Option<string>)
    ensures last.Some? ==> last.value in Providers && last.value in names
    ensures last.None? ==> forall i :: 0 <= i < |names| ==> names[i] !in Providers
  {
    if |names| == 0 then None
    else if names[|names| - 1] in Providers then Some(names[|names| - 1])
    else LastAccepted(names[..|names| - 1])
  }

  lemma {:induction false} ApplySwitchesSnoc(cfg: GatewayConfig, names: seq<string>, name: string)
    ensures ApplySwitches(cfg, names + [name])
      == StateAfter(ApplySwitches(cfg, names), SwitchProvider(ApplySwitches(cfg, names), name))
    decreases |names|
  {
    if |names| == 0 {
      assert names + [name] == [name];
    } else {
      assert (names + [name])[1..] == names[1..] + [name];
      ApplySwitchesSnoc(StateAfter(cfg, SwitchProvider(cfg, names[0])), names[1..], name);
    }
  }

  /** After any sequence of switch requests the default is the last accepted name, or the
      start-up default when none was accepted; nothing else in the configuration changes.
      So the switch never installs a name outside the known providers. */
  lemma {:induction false} SwitchesInstallLastAccepted(cfg: GatewayConfig, names: seq<string>)
    ensures LastAccepted(names).None? ==> ApplySwitches(cfg, names) == cfg
    ensures LastAccepted(names).Some? ==>
      ApplySwitches(cfg, names) == cfg.(defaultProvider := LastAccepted(names).value)
    decreases |names|
  {
    if |names| > 0 {
      var init := names[..|names| - 1];
      assert names == init + [names[|names| - 1]];
      ApplySwitchesSnoc(cfg, init, names[|names| - 1]);
      SwitchesInstallLastAccepted(cfg, init);
    }
  }

  /** Once the default is a known provider, switching keeps it one. */
  lemma SwitchesKeepDefaultKnown(cfg: GatewayConfig, names: seq<string>)
    requires cfg.defaultProvider in Providers
    ensures ApplySwitches(cfg, names).defaultProvider in Providers
  {
    SwitchesInstallLastAccepted(cfg, names);
  }

  /** The body of the health check. */
  datatype HealthStatus = HealthStatus(
    status: string,
    service: string,
    version: string,
    local: string,
    openai: string,
    azure: string)

  /** `health_check`: OpenAI counts as configured when a key is set, Azure when an endpoint is
      set, whatever its key. */
  function HealthCheck(cfg: GatewayConfig): (h: HealthStatus)
    ensures h.local == cfg.localLlmUrl
    ensures h.openai == "configured" <==> Truthy(cfg.openaiApiKey)
    ensures h.azure == "configured" <==> Truthy(cfg.azureOpenaiEndpoint)
    ensures h.openai in {"configured", "not configured"} && h.azure in {"configured", "not configured"}
  {
    HealthStatus(
      "healthy",
      "LLM Gateway",
      "1.0.0",
      cfg.localLlmUrl,
      if Truthy(cfg.openaiApiKey) then "configured" else "not configured",
      if Truthy(cfg.azureOpenaiEndpoint) then "configured" else "not configured")
  }

  /** The health report depends neither on the Azure key nor on the current default provider,
      so no switch request changes it. */
  lemma HealthIgnoresKeyAndDefault(cfg: GatewayConfig, azureKey: Option<string>, names: seq<string>)
    ensures HealthCheck(cfg.(azureOpenaiKey := azureKey)) == HealthCheck(cfg)
    ensures HealthCheck(ApplySwitches(cfg, names)) == HealthCheck(cfg)
  {
    SwitchesInstallLastAccepted(cfg, names);
  }

  /** What the health report says about a process started with environment `env`: OpenAI is
      configured iff `OPENAI_API_KEY` is set and non-empty, Azure iff `AZURE_OPENAI_ENDPOINT`
      is, and the local URL is `LOCAL_LLM_URL` or its default. */
  lemma HealthFromEnvironment(env: map<string, string>)
    ensures HealthCheck(LoadConfig(env)).openai == "configured"
      <==> "OPENAI_API_KEY" in env && |env["OPENAI_API_KEY"]| > 0
    ensures HealthCheck(LoadConfig(env)).azure == "configured"
      <==> "AZURE_OPENAI_ENDPOINT" in env && |env["AZURE_OPENAI_ENDPOINT"]| > 0
    ensures HealthCheck(LoadConfig(env)).local
      == if "LOCAL_LLM_URL" in env then env["LOCAL_LLM_URL"] else "http://localhost:11434"
  {
  }

  /** One entry of `list_models`. */
  datatype ModelInfo = ModelInfo(id: string, ownedBy: string, providers: seq<string>)

  /** The models `list_models` advertises. */
  const ListedModels: seq<ModelInfo> := [
    ModelInfo("gpt-3.5-turbo", "gateway", ["local", "openai", "azure"]),
    ModelInfo("gpt-4", "gateway", ["local", "openai", "azure"]),
    ModelInfo("text-embedding-ada-002", "gateway", ["local", "openai", "azure"])]

  /** Every advertised model and provider pair has an entry in the mapping table. */
  lemma ListedModelsAreMapped(i: nat, j: nat)
    requires i < |ListedModels| && j < |ListedModels[i].providers|
    ensures ListedModels[i].providers[j] in ProviderModels
    ensures ListedModels[i].id in ProviderModels[ListedModels[i].providers[j]]
  {
  }

  /** Why a request body failed validation (FastAPI answers 422). */
  datatype ValidationError = InvalidField(field: string)

  /** A string field with a default for when it is absent. */
  function StrField(fields: map<string, Json>, key: string, default: string): Result<string, ValidationError> {
    if key !in fields then Success(default)
    else if fields[key].JStr? then Success(fields[key].s)
    else Failure(InvalidField(key))
  }

  /** An `Optional[str]` field: absent and `null` both mean `None`. */
  function OptStrField(fields: map<string, Json>, key: string): Result<Option<string>, ValidationError> {
    if key !in fields || fields[key] == JNull then Success(None)
    else if fields[key].JStr? then Success(Some(fields[key].s))
    else Failure(InvalidField(key))
  }

  /** An `Optional[float]` field with a default for when it is absent; integers are accepted. */
  function OptFloatField(fields: map<string, Json>, key: string, default: Option<real>): Result<Option<real>, ValidationError> {
    if key !in fields then Success(default)
    else match fields[key]
      case JNull => Success(None)
      case JFloat(f) => Success(Some(f))
      case JInt(n) => Success(Some(n as real))
      case _ => Failure(InvalidField(key))
  }

  /** An `Optional[int]` field defaulting to `None`. */
  function OptIntField(fields: map<string, Json>, key: string): Result<Option<int>, ValidationError> {
    if key !in fields || fields[key] == JNull then Success(None)
    else if fields[key].JInt? then Success(Some(fields[key].i))
    else Failure(InvalidField(key))
  }

  /** An `Optional[bool]` field with a default for when it is absent. */
  function OptBoolField(fields: map<string, Json>, key: string, default: Option<bool>): Result<Option<bool>, ValidationError> {
    if key !in fields then Success(default)
    else match fields[key]
      case JNull => Success(None)
      case JBool(b) => Success(Some(b))
      case _ => Failure(InvalidField(key))
  }

  /** A JSON value that validates as a `ChatMessage`: an object with string `role` and
      `content`. */
  predicate IsMessageJson(j: Json) {
    && j.JObject?
    && "role" in j.fields && j.fields["role"].JStr?
    && "content" in j.fields && j.fields["content"].JStr?
  }

  /** A chat message as a JSON object. */
  function MessageJson(m: ChatMessage): Json {
    JObject(map["role" := JStr(m.role), "content" := JStr(m.content)])
  }

  /** One `ChatMessage`: its role and content are read from the object's string fields. */
  function ParseMessage(j: Json): (r: Result<ChatMessage, ValidationError>)
    ensures r.Success? <==> IsMessageJson(j)
    ensures r.Success? ==> j.fields["role"] == JStr(r.value.role) && j.fields["content"] == JStr(r.value.content)
  {
    if !j.JObject? then Failure(InvalidField("messages"))
    else if "role" !in j.fields || !j.fields["role"].JStr? then Failure(InvalidField("messages.role"))
    else if "content" !in j.fields || !j.fields["content"].JStr? then Failure(InvalidField("messages.content"))
    else Success(ChatMessage(j.fields["role"].s, j.fields["content"].s))
  }

  /** `list[ChatMessage]`: every item must validate, and the messages keep their order. */
  function ParseMessages(items: seq<Json>): (r: Result<seq<ChatMessage>, ValidationError>)
    ensures r.Success? <==> forall i :: 0 <= i < |items| ==> IsMessageJson(items[i])
    ensures r.Success? ==> |r.value| == |items|
    ensures r.Success? ==> forall i :: 0 <= i < |items| ==> ParseMessage(items[i]) == Success(r.value[i])
  {
    if |items| == 0 then Success([])
    else
      var first :- ParseMessage(items[0]);
      var rest :- ParseMessages(items[1..]);
      Success([first] + rest)
  }

  /** The bodies `ChatCompletionRequest` accepts: an object whose `messages` is a list of
      messages and whose other fields, where present, have their declared kinds (`null` is
      allowed for the optional ones). */
  predicate WellTypedChatBody(body: Json) {
    && body.JObject?
    && ("model" in body.fields ==> body.fields["model"].JStr?)
    && "messages" in body.fields && body.fields["messages"].JArray?
    && (forall i :: 0 <= i < |body.fields["messages"].items| ==> IsMessageJson(body.fields["messages"].items[i]))
    && ("temperature" in body.fields ==>
          body.fields["temperature"].JNull? || body.fields["temperature"].JFloat? || body.fields["temperature"].JInt?)
    && ("max_tokens" in body.fields ==> body.fields["max_tokens"].JNull? || body.fields["max_tokens"].JInt?)
    && ("stream" in body.fields ==> body.fields["stream"].JNull? || body.fields["stream"].JBool?)
    && ("provider" in body.fields ==> body.fields["provider"].JNull? || body.fields["provider"].JStr?)
  }

  /** Validation of a chat request body against `ChatCompletionRequest`, with its defaults:
      `messages` is required, every other field may be left out and then takes its default. */
  function ParseChatRequest(body: Json): (r: Result<ChatCompletionRequest, ValidationError>)
    ensures r.Success? <==> WellTypedChatBody(body)
    ensures r.Success? ==> |r.value.messages| == |body.fields["messages"].items|
    ensures r.Success? && "model" !in body.fields ==> r.value.model == "gpt-3.5-turbo"
    ensures r.Success? && "temperature" !in body.fields ==> r.value.temperature == Some(0.7)
    ensures r.Success? && "max_tokens" !in body.fields ==> r.value.maxTokens == None
    ensures r.Success? && "stream" !in body.fields ==> r.value.stream == Some(false)
    ensures r.Success? && "provider" !in body.fields ==> r.value.provider == None
    ensures r.Success? ==> ParseMessages(body.fields["messages"].items) == Success(r.value.messages)
    ensures r.Success? && "model" in body.fields ==> r.value.model == body.fields["model"].s
    ensures r.Success? && "temperature" in body.fields ==>
      r.value.temperature == match body.fields["temperature"]
        case JFloat(f) => Some(f)
        case JInt(n) => Some(n as real)
        case _ => None
    ensures r.Success? && "max_tokens" in body.fields ==>
      r.value.maxTokens == if body.fields["max_tokens"].JInt? then Some(body.fields["max_tokens"].i) else None
    ensures r.Success? && "stream" in body.fields ==>
      r.value.stream == if body.fields["stream"].JBool? then Some(body.fields["stream"].b) else None
    ensures r.Success? && "provider" in body.fields ==>
      r.value.provider == if body.fields["provider"].JStr? then Some(body.fields["provider"].s) else None
  {
    if !body.JObject? then Failure(InvalidField("body"))
    else
      var fields := body.fields;
      var model :- StrField(fields, "model", "gpt-3.5-turbo");
      var messages :-
        if "messages" in fields && fields["messages"].JArray? then ParseMessages(fields["messages"].items)
        else Failure(InvalidField("messages"));
      var temperature :- OptFloatField(fields, "temperature", Some(0.7));
      var maxTokens :- OptIntField(fields, "max_tokens");
      var stream :- OptBoolField(fields, "stream", Some(false));
      var provider :- OptStrField(fields, "provider");
      Success(ChatCompletionRequest(model, messages, temperature, maxTokens, stream, provider))
  }

  /** A body holding only `messages` validates, with every other field at its default. */
  lemma MessagesOnlyBodyTakesDefaults(ms: seq<ChatMessage>)
    ensures ParseChatRequest(JObject(map["messages" := JArray(seq(|ms|, i requires 0 <= i < |ms| => MessageJson(ms[i])))]))
      == Success(ChatCompletionRequest("gpt-3.5-turbo", ms, Some(0.7), None, Some(false), None))
  {
    var items := seq(|ms|, i requires 0 <= i < |ms| => MessageJson(ms[i]));
    var parsed := ParseMessages(items);
    assert parsed.Success?;
    assert parsed.value == ms by {
      forall i | 0 <= i < |ms|
        ensures parsed.value[i] == ms[i]
      {
        assert ParseMessage(items[i]) == Success(ms[i]);
      }
    }
  }
}

=== FILE: json.dfy ===
/** JSON documents as exchanged between the client and the gateway over HTTP. */
module Json {
  import opened Wrappers

  /** A JSON value. Objects are keyed maps: key order plays no part in any behaviour modelled here. */
  datatype Json =
    | JNull
    | JBool(b: bool)
    | JInt(i: int)
    | JFloat(f: real)
    | JStr(s: string)
    | JArray(items: seq<Json>)
    | JObject(fields: map<string, Json>)

  /** Python's `d.get(key)` on a decoded object: `None` when the key is absent or holds `null`. */
  function Get(fields: map<string, Json>, key: string): (r: Option<Json>)
    ensures r.Some? <==> key in fields && fields[key] != JNull
    ensures r.Some? ==> r.value == fields[key]
  {
    if key in fields && fields[key] != JNull then Some(fields[key]) else None
  }

  /** The JSON encoding of an optional value: `None` is `null`. */
  function OrNull(o: Option<Json>): Json {
    match o
    case Some(v) => v
    case None => JNull
  }
}

=== FILE: llm_client.dfy ===
/** `LLMClient`: how the shared client shapes a chat-completion call to the gateway and reads
    the gateway's reply. The HTTP exchange itself is a parameter: the model starts from the
    decoded body of a successful reply. */
module LlmClient {
  import opened Wrappers
  import opened Json
  import opened Strings

  /** The `LLMProvider` enum. */
  datatype LLMProvider = Local | OpenAI | Azure {

    /** The enum member's `.value`. */
    function Value(): string {
      match this
      case Local => "local"
      case OpenAI => "openai"
      case Azure => "azure"
    }
  }

  /** Distinct providers have distinct, non-empty wire names, none of them `"unknown"`. */
  lemma ProviderValuesDistinct(p: LLMProvider, q: LLMProvider)
    ensures p.Value() == q.Value() <==> p == q
    ensures |p.Value()| > 0 && p.Value() != "unknown"
  {
  }

  /** `LLMRequest`; `context` is never read when building a chat call and is not modelled. */
  datatype LLMRequest = LLMRequest(
    prompt: string,
    model: string := "gpt-3.5-turbo",
    provider: Option<LLMProvider> := None,
    temperature: real := 0.7,
    maxTokens: Option<int> := None,
    stream: bool := false)

  /** `LLMResponse`, without the wall-clock `response_time`. `content` and `model` are whatever
      JSON the reply holds there: the dataclass does not check them. */
  datatype LLMResponse = LLMResponse(
    content: Json,
    model: Json,
    provider: string,
    usage: Option<Json>,
    finishReason: Option<Json>)

  /** A reply field the client indexes into was missing or of the wrong kind
      (`chat_completion` raises `KeyError`, `IndexError` or `TypeError`). */
  datatype ClientError = MalformedReply(path: string)

  /** The client keeps only the gateway base URL. */
  datatype LLMClient = LLMClient(gatewayUrl: string)

  const DefaultGatewayUrl: string := "http://localhost:8000"
  const ChatEndpoint: string := "/v1/chat/completions"

  /** `LLMClient.__init__`: the base URL without its trailing slashes. */
  function NewClient(gatewayUrl: string := DefaultGatewayUrl): (c: LLMClient)
    ensures c.gatewayUrl <= gatewayUrl
    ensures |c.gatewayUrl| == 0 || c.gatewayUrl[|c.gatewayUrl| - 1] != '/'
    ensures forall i :: |c.gatewayUrl| <= i < |gatewayUrl| ==> gatewayUrl[i] == '/'
  {
    LLMClient(RStrip(gatewayUrl, '/'))
  }

  /** Normalising is idempotent, and trailing slashes make no difference to the client. */
  lemma NewClientNormalises(gatewayUrl: string)
    ensures NewClient(NewClient(gatewayUrl).gatewayUrl) == NewClient(gatewayUrl)
    ensures NewClient(gatewayUrl + "/") == NewClient(gatewayUrl)
  {
    assert (gatewayUrl + "/")[..|gatewayUrl|] == gatewayUrl;
  }

  /** The URL `_make_request` posts to. */
  function RequestUrl(client: LLMClient, endpoint: string): (url: string)
    ensures client.gatewayUrl <= url && url[|client.gatewayUrl|..] == endpoint
  {
    client.gatewayUrl + endpoint
  }

  /** A base URL written with any number of trailing slashes yields the same request URL: the
      slash-free base followed directly by the endpoint. */
  lemma RequestUrlJoinsCleanly(base: string, slashes: nat, endpoint: string)
    requires |base| == 0 || base[|base| - 1] != '/'
    ensures RequestUrl(NewClient(base + seq(slashes, _ => '/')), endpoint) == base + endpoint
    decreases slashes
  {
    if slashes > 0 {
      var u := base + seq(slashes, _ => '/');
      assert u[..|u| - 1] == base + seq(slashes - 1, _ => '/');
      RequestUrlJoinsCleanly(base, slashes - 1, endpoint);
    } else {
      assert base + seq(0, _ => '/') == base;
    }
  }

  /** The one message a chat call sends: the prompt as the user's turn. */
  function UserMessage(prompt: string): Json {
    JObject(map["role" := JStr("user"), "content" := JStr(prompt)])
  }

  /** The JSON body `chat_completion` posts. `max_tokens` is always sent (as `null` when unset);
      `provider` only when the request names one. */
  function ChatPayload(req: LLMRequest): (body: Json)
    ensures body.JObject?
    ensures "provider" in body.fields <==> req.provider.Some?
    ensures "messages" in body.fields && body.fields["messages"] == JArray([UserMessage(req.prompt)])
  {
    var fields := map[
      "model" := JStr(req.model),
      "messages" := JArray([UserMessage(req.prompt)]),
      "temperature" := JFloat(req.temperature),
      "max_tokens" := OrNull(if req.maxTokens.Some? then Some(JInt(req.maxTokens.value)) else None),
      "stream" := JBool(req.stream)];
    if req.provider.Some? then
      JObject(fields["provider" := JStr(req.provider.value.Value())])
    else
      JObject(fields)
  }

  /** An outbound POST: target URL and JSON body. */
  datatype HttpPost = HttpPost(url: string, body: Json)

  /** The request `chat_completion` makes of the gateway. */
  function ChatCompletionPost(client: LLMClient, req: LLMRequest): (post: HttpPost)
    ensures client.gatewayUrl <= post.url && post.url[|client.gatewayUrl|..] == "/v1/chat/completions"
    ensures post.body.JObject? && "messages" in post.body.fields && post.body.fields["messages"] == JArray([UserMessage(req.prompt)])
    ensures "provider" in post.body.fields <==> req.provider.Some?
  {
    HttpPost(RequestUrl(client, ChatEndpoint), ChatPayload(req))
  }

  /** A client built from a base URL written with any number of trailing slashes posts chat
      calls to that base followed directly by `/v1/chat/completions`. */
  lemma ChatPostFromBase(base: string, slashes: nat, req: LLMRequest)
    requires |base| == 0 || base[|base| - 1] != '/'
    ensures ChatCompletionPost(NewClient(base + seq(slashes, _ => '/')), req).url == base + "/v1/chat/completions"
  {
    RequestUrlJoinsCleanly(base, slashes, ChatEndpoint);
  }

  /** The provider name the client reports: the request's provider, or `"unknown"`. */
  function ResponseProvider(req: LLMRequest): (p: string)
    ensures p == "unknown" <==> req.provider.None?
    ensures req.provider.Some? ==> p == req.provider.value.Value()
  {
    if req.provider.Some? then req.provider.value.Value() else "unknown"
  }

  /** Whether a decoded reply has the OpenAI shape the client reads. */
  predicate IsOpenAIReply(data: Json) {
    && data.JObject?
    && "choices" in data.fields
    && data.fields["choices"].JArray?
    && |data.fields["choices"].items| > 0
    && data.fields["choices"].items[0].JObject?
    && "message" in data.fields["choices"].items[0].fields
    && data.fields["choices"].items[0].fields["message"].JObject?
    && "content" in data.fields["choices"].items[0].fields["message"].fields
    && "model" in data.fields
  }

  /** The tail of `chat_completion`: read content, usage, finish reason and model out of the
      gateway's reply, in the order `chat_completion` indexes them. */
  function ReadReply(req: LLMRequest, data: Json): (r: Result<LLMResponse, ClientError>)
    ensures r.Success? <==> IsOpenAIReply(data)
    ensures r.Success? ==> r.value.provider == ResponseProvider(req)
    ensures r.Success? ==> r.value.content == data.fields["choices"].items[0].fields["message"].fields["content"]
    ensures r.Success? ==> r.value.model == data.fields["model"]
    ensures r.Success? ==> r.value.usage == Get(data.fields, "usage")
    ensures r.Success? ==> r.value.finishReason == Get(data.fields["choices"].items[0].fields, "finish_reason")
  {
    if !data.JObject? || "choices" !in data.fields then Failure(MalformedReply("choices"))
    else
      var choices := data.fields["choices"];
      if !choices.JArray? || |choices.items| == 0 then Failure(MalformedReply("choices[0]"))
      else
        var choice := choices.items[0];
        if !choice.JObject? || "message" !in choice.fields then Failure(MalformedReply("choices[0].message"))
        else
          var message := choice.fields["message"];
          if !message.JObject? || "content" !in message.fields then Failure(MalformedReply("choices[0].message.content"))
          else if "model" !in data.fields then Failure(MalformedReply("model"))
          else
            Success(LLMResponse(
              message.fields["content"],
              data.fields["model"],
              ResponseProvider(req),
              Get(data.fields, "usage"),
              Get(choice.fields, "finish_reason")))
  }

  /** An OpenAI-format reply, as the gateway relays it: the content and model the client reads,
      optional usage and finish reason, any further keys at the top level (`id`, `object`,
      `created`, ...), in the first choice (`index`, ...) and in its message, and any further
      choices after the first. */
  function ReplyJson(
    content: Json, model: Json, usage: Option<Json>, finishReason: Option<Json>,
    extra: map<string, Json>, choiceExtra: map<string, Json>, messageExtra: map<string, Json>,
    laterChoices: seq<Json>): Json
  {
    var message := messageExtra["role" := JStr("assistant")]["content" := content];
    var choice := choiceExtra["message" := JObject(message)];
    var choice' := if finishReason.Some? then choice["finish_reason" := finishReason.value]
                   else choice - {"finish_reason"};
    var fields := extra["choices" := JArray([JObject(choice')] + laterChoices)]["model" := model];
    JObject(if usage.Some? then fields["usage" := usage.value] else fields - {"usage"})
  }

  /** Reading any reply of that shape recovers exactly the content, model, usage and finish
      reason it carries, whatever other keys and choices it holds. */
  lemma ReadReplyRoundTrip(
    req: LLMRequest, content: Json, model: Json, usage: Option<Json>, finishReason: Option<Json>,
    extra: map<string, Json>, choiceExtra: map<string, Json>, messageExtra: map<string, Json>,
    laterChoices: seq<Json>)
    requires usage != Some(JNull) && finishReason != Some(JNull)
    ensures ReadReply(req, ReplyJson(content, model, usage, finishReason, extra, choiceExtra, messageExtra, laterChoices))
      == Success(LLMResponse(content, model, ResponseProvider(req), usage, finishReason))
  {
  }
}

=== FILE: office_format.dfy ===
/** `format_response_for_office`: rewriting a model's markdown-flavoured reply for an Office
    document, selected by a format name. */
module OfficeFormat {
  import opened Strings

  /** The markup characters plain mode deletes. */
  const MarkupChars: set<char> := {'*', '#'}

  /** Plain mode: delete `**`, then `*`, then `#`. */
  function FormatPlain(response: string): (r: string)
    ensures r == Without(response, MarkupChars)
  {
    var noBold := ReplaceAll(response, "**", "");
    var noStar := ReplaceAll(noBold, "*", "");
    DeletePairsThenChars(response, '*');
    ReplaceCharByNothing(noBold, '*');
    ReplaceCharByNothing(noStar, '#');
    WithoutTwice(response, {'*'}, {'#'});
    assert {'*'} + {'#'} == MarkupChars;
    ReplaceAll(noStar, "#", "")
  }

  /** The break conversion read as one left-to-right scan: a pair of newlines closes the
      paragraph and opens the next, a single newline breaks the line, anything else is kept. */
  function Breaks(s: string): string
    decreases |s|
  {
    if |s| == 0 then ""
    else if "\n\n" <= s then "</p><p>" + Breaks(s[2..])
    else if s[0] == '\n' then "<br>" + Breaks(s[1..])
    else [s[0]] + Breaks(s[1..])
  }

  /** Paragraph and line breaks as HTML: blank lines end a paragraph, other newlines break a
      line. No newline is left, and text without one is returned as it is. */
  function HtmlBreaks(response: string): (r: string)
    ensures r == Breaks(response)
    ensures '\n' !in r
    ensures '\n' !in response ==> r == response
  {
    HtmlBreaksScan(response);
    var paragraphs := ReplaceAll(response, "\n\n", "</p><p>");
    ReplaceWithoutFirstChar(response, "\n\n", "</p><p>");
    ReplaceWithoutFirstChar(paragraphs, "\n", "<br>");
    ReplaceCharRemoves(paragraphs, '\n', "<br>");
    ReplaceAll(paragraphs, "\n", "<br>")
  }

  /** Replacing every blank line and then every remaining newline is the single scan `Breaks`:
      after the first pass every newline left stands alone. */
  lemma {:induction false} HtmlBreaksScan(s: string)
    ensures ReplaceAll(ReplaceAll(s, "\n\n", "</p><p>"), "\n", "<br>") == Breaks(s)
    decreases |s|
  {
    if |s| == 0 {
    } else if "\n\n" <= s {
      var rest := ReplaceAll(s[2..], "\n\n", "</p><p>");
      assert ReplaceAll(s, "\n\n", "</p><p>") == "</p><p>" + rest;
      ReplaceUntouchedPrefix("</p><p>", rest, "\n", "<br>");
      HtmlBreaksScan(s[2..]);
    } else {
      var rest := ReplaceAll(s[1..], "\n\n", "</p><p>");
      assert ReplaceAll(s, "\n\n", "</p><p>") == [s[0]] + rest;
      if s[0] == '\n' {
        LineBreakStep(rest);
      } else {
        ReplaceUntouchedPrefix([s[0]], rest, "\n", "<br>");
      }
      HtmlBreaksScan(s[1..]);
    }
  }

  /** A newline in front becomes `<br>` and the rest is converted on its own. */
  lemma LineBreakStep(y: string)
    ensures ReplaceAll("\n" + y, "\n", "<br>") == "<br>" + ReplaceAll(y, "\n", "<br>")
  {
    assert "\n" <= "\n" + y;
    assert ("\n" + y)[1..] == y;
  }

  /** Html mode as written: wrap in a paragraph, then replace `**` by the opening tag and
      (a second time) by the closing tag. */
  function FormatHtml(response: string): (r: string)
    ensures "<p>" <= r
    ensures |r| >= 7 && r[|r| - 4..] == "</p>"
    ensures '\n' !in r
    ensures !Contains(r, "**")
  {
    var wrapped := "<p>" + HtmlBreaks(response) + "</p>";
    var bold := ReplaceAll(wrapped, "**", "<strong>");
    BoldKeepsWrapper(HtmlBreaks(response));
    BoldLeavesNoPair(wrapped);
    HtmlHasNoNewline(response);
    ReplaceAll(bold, "**", "</strong>")
  }

  /** The paragraph wrapper holds no `*`, so the bold replacement leaves it in place. */
  lemma BoldKeepsWrapper(breaks: string)
    ensures ReplaceAll("<p>" + breaks + "</p>", "**", "<strong>")
      == "<p>" + ReplaceAll(breaks, "**", "<strong>") + "</p>"
  {
    var close := "</p>";
    assert forall i :: 0 <= i < |close| ==> close[i] !in "**";
    ReplaceUntouchedPrefix("<p>", breaks + close, "**", "<strong>");
    ReplaceUntouchedSuffix(breaks, close, "**", "<strong>");
    assert "<p>" + breaks + close == "<p>" + (breaks + close);
  }

  /** After `**` has become `<strong>` none is left, so replacing `**` again changes nothing. */
  lemma BoldLeavesNoPair(s: string)
    ensures !Contains(ReplaceAll(s, "**", "<strong>"), "**")
    ensures ReplaceAll(ReplaceAll(s, "**", "<strong>"), "**", "</strong>") == ReplaceAll(s, "**", "<strong>")
  {
    assert "**" == ['*', '*'];
    ReplacePairRemoves(s, '*', "<strong>");
    ReplaceAbsent(ReplaceAll(s, "**", "<strong>"), "**", "</strong>");
  }

  /** No newline survives the break conversion, nor the bold replacement after it. */
  lemma HtmlHasNoNewline(response: string)
    ensures '\n' !in ReplaceAll("<p>" + HtmlBreaks(response) + "</p>", "**", "<strong>")
  {
    var breaks := HtmlBreaks(response);
    var wrapped := "<p>" + breaks + "</p>";
    assert '\n' !in wrapped;
    ReplaceKeepsOut(wrapped, "**", "<strong>", '\n');
  }

  /** Every `**` becomes `<strong>`: after the first replacement no `**` is left, so the second
      one, meant to close the bold span, never matches; the paragraph wrapper is untouched. */
  lemma HtmlOpensEveryBold(response: string)
    ensures FormatHtml(response) == "<p>" + ReplaceAll(HtmlBreaks(response), "**", "<strong>") + "</p>"
  {
    BoldKeepsWrapper(HtmlBreaks(response));
    BoldLeavesNoPair("<p>" + HtmlBreaks(response) + "</p>");
  }

  /** `format_response_for_office(response, format_type)`. */
  function FormatResponseForOffice(response: string, formatType: string := "plain"): (r: string)
    ensures formatType == "plain" ==> r == Without(response, MarkupChars)
    ensures formatType == "html" ==>
      "<p>" <= r && |r| >= 7 && r[|r| - 4..] == "</p>" && '\n' !in r && !Contains(r, "**")
    ensures formatType != "html" && formatType != "plain" ==> r == response
  {
    if formatType == "markdown" then response
    else if formatType == "html" then FormatHtml(response)
    else if formatType == "plain" then FormatPlain(response)
    else response
  }

  /** Markdown and any unrecognised format return the reply unchanged. */
  lemma PassThroughFormats(response: string, formatType: string)
    requires formatType != "html" && formatType != "plain"
    ensures FormatResponseForOffice(response, formatType) == response
  {
  }

  /** Plain mode deletes exactly the `*` and `#` characters, leaves none, and a second pass
      changes nothing. */
  lemma PlainStripsMarkup(response: string)
    ensures FormatResponseForOffice(response, "plain") == Without(response, {'*', '#'})
    ensures forall i :: 0 <= i < |FormatResponseForOffice(response, "plain")| ==>
      FormatResponseForOffice(response, "plain")[i] != '*' && FormatResponseForOffice(response, "plain")[i] != '#'
    ensures FormatResponseForOffice(FormatResponseForOffice(response, "plain"), "plain") == FormatResponseForOffice(response, "plain")
  {
    var once := Without(response, MarkupChars);
    WithoutTwice(response, MarkupChars, MarkupChars);
    assert MarkupChars + MarkupChars == MarkupChars;
  }
}

=== FILE: strings.dfy ===
/** The parts of Python's `str` that the text utilities rely on: `isspace`, `split()` with no
    separator, `' '.join`, `replace` and `rstrip`. */
module Strings {

  /** Python's `str.isspace()` on one character: the characters `str.split()` splits on. */
  predicate IsSpace(c: char) {
    || c == ' ' || c == '\t' || c == '\n' || c == '\r' || c == '\U{0b}' || c == '\U{0c}'
    || ('\U{1c}' <= c <= '\U{1f}')
    || c == '\U{85}' || c == '\U{a0}' || c == '\U{1680}'
    || ('\U{2000}' <= c <= '\U{200a}')
    || c == '\U{2028}' || c == '\U{2029}' || c == '\U{202f}' || c == '\U{205f}' || c == '\U{3000}'
  }

  /** Within ASCII, the whitespace is `string.whitespace` and the four information
      separators; letters and digits never are whitespace. */
  lemma AsciiWhitespace(c: char)
    ensures (c as int) < 0x80 ==> (IsSpace(c) <==> c in " \t\n\r\U{0b}\U{0c}\U{1c}\U{1d}\U{1e}\U{1f}")
    ensures ('a' <= c <= 'z' || 'A' <= c <= 'Z' || '0' <= c <= '9') ==> !IsSpace(c)
  {
  }

  /** A word as `split()` returns it: non-empty and free of whitespace. */
  predicate IsWord(w: string) {
    |w| > 0 && forall i :: 0 <= i < |w| ==> !IsSpace(w[i])
  }

  predicate AllWords(ws: seq<string>) {
    forall i :: 0 <= i < |ws| ==> IsWord(ws[i])
  }

  predicate AllSpace(s: string) {
    forall i :: 0 <= i < |s| ==> IsSpace(s[i])
  }

  /** Length of the longest prefix of `s` holding no whitespace. */
  function WordLength(s: string): (n: nat)
    ensures n <= |s|
    ensures forall i :: 0 <= i < n ==> !IsSpace(s[i])
    ensures n == |s| || IsSpace(s[n])
  {
    if |s| == 0 || IsSpace(s[0]) then 0 else 1 + WordLength(s[1..])
  }

  /** Python's `s.split()`: the maximal runs of non-whitespace, in order. */
  function Split(s: string): (ws: seq<string>)
    ensures AllWords(ws)
    decreases |s|
  {
    if |s| == 0 then []
    else if IsSpace(s[0]) then Split(s[1..])
    else
      var n := WordLength(s);
      [s[..n]] + Split(s[n..])
  }

  /** Python's `sep.join(ws)`: the text opens with the first element and closes with the
      last. */
  function Join(ws: seq<string>, sep: string): (r: string)
    ensures |ws| == 0 ==> r == ""
    ensures |ws| > 0 ==> ws[0] <= r
    ensures |ws| > 0 ==> |ws[|ws| - 1]| <= |r| && r[|r| - |ws[|ws| - 1]|..] == ws[|ws| - 1]
  {
    if |ws| == 0 then ""
    else if |ws| == 1 then ws[0]
    else ws[0] + sep + Join(ws[1..], sep)
  }

  /** All the elements of `xss`, in order. */
  function Flatten<T>(xss: seq<seq<T>>): seq<T> {
    if |xss| == 0 then [] else xss[0] + Flatten(xss[1..])
  }

  /** A word followed by whitespace splits off as that word. */
  lemma {:induction false} SplitWordThenSpace(w: string, c: char, rest: string)
    requires IsWord(w) && IsSpace(c)
    ensures Split(w + [c] + rest) == [w] + Split(rest)
  {
    var tail := [c] + rest;
    var s := w + tail;
    assert s == w + [c] + rest;
    WordLengthOfWord(w, tail);
    assert s[0] == w[0] && !IsSpace(s[0]);
    assert s[..|w|] == w;
    assert s[|w|..] == tail;
    assert Split(s) == [w] + Split(tail);
    assert tail[1..] == rest;
  }

  lemma {:induction false} WordLengthOfWord(w: string, tail: string)
    requires IsWord(w)
    requires |tail| == 0 || IsSpace(tail[0])
    ensures WordLength(w + tail) == |w|
    decreases |w|
  {
    var s := w + tail;
    assert s[0] == w[0];
    if |w| > 1 {
      assert s[1..] == w[1..] + tail;
      WordLengthOfWord(w[1..], tail);
    } else {
      assert s[1..] == tail;
    }
  }

  /** Joining words with single spaces and splitting again gives the words back. */
  lemma {:induction false} SplitJoin(ws: seq<string>)
    requires AllWords(ws)
    ensures Split(Join(ws, " ")) == ws
    decreases |ws|
  {
    if |ws| == 0 {
    } else if |ws| == 1 {
      WordLengthOfWord(ws[0], "");
      assert ws[0] + "" == ws[0];
      assert ws[0][..|ws[0]|] == ws[0];
      assert ws[0][|ws[0]|..] == "";
    } else {
      SplitJoin(ws[1..]);
      SplitWordThenSpace(ws[0], ' ', Join(ws[1..], " "));
      assert ws[0] + " " + Join(ws[1..], " ") == ws[0] + [' '] + Join(ws[1..], " ");
      assert ws == [ws[0]] + ws[1..];
    }
  }

  /** `split()` yields nothing exactly when the text is empty or all whitespace. */
  lemma {:induction false} SplitEmptyIffAllSpace(s: string)
    ensures Split(s) == [] <==> AllSpace(s)
    decreases |s|
  {
    if |s| > 0 {
      SplitEmptyIffAllSpace(s[1..]);
      if IsSpace(s[0]) {
        assert AllSpace(s) <==> AllSpace(s[1..]) by {
          if AllSpace(s[1..]) {
            forall i | 0 <= i < |s| ensures IsSpace(s[i]) {
              if i > 0 { assert s[i] == s[1..][i - 1]; }
            }
          }
        }
      }
    }
  }

  /** Whether `pat` occurs in `s` (Python's `pat in s`). */
  predicate Contains(s: string, pat: string)
    decreases |s|
  {
    pat <= s || (|s| > 0 && Contains(s[1..], pat))
  }

  /** Python's `s.replace(pat, rep)`: every occurrence of `pat`, found left to right and
      without overlap, is replaced by `rep`. */
  function ReplaceAll(s: string, pat: string, rep: string): (r: string)
    requires |pat| > 0
    ensures pat <= s ==> rep <= r
    ensures |s| > 0 && !(pat <= s) ==> |r| > 0 && r[0] == s[0]
    ensures |s| < |pat| ==> r == s
    decreases |s|
  {
    if |s| == 0 then ""
    else if pat <= s then rep + ReplaceAll(s[|pat|..], pat, rep)
    else [s[0]] + ReplaceAll(s[1..], pat, rep)
  }

  /** Replacing a pattern that does not occur changes nothing. */
  lemma {:induction false} ReplaceAbsent(s: string, pat: string, rep: string)
    requires |pat| > 0
    requires !Contains(s, pat)
    ensures ReplaceAll(s, pat, rep) == s
    decreases |s|
  {
    if |s| > 0 {
      ReplaceAbsent(s[1..], pat, rep);
      assert s == [s[0]] + s[1..];
    }
  }

  /** A character found in neither the text nor the replacement is not in the result. */
  lemma {:induction false} ReplaceKeepsOut(s: string, pat: string, rep: string, x: char)
    requires |pat| > 0
    requires x !in s && x !in rep
    ensures x !in ReplaceAll(s, pat, rep)
    decreases |s|
  {
    if |s| > 0 {
      if pat <= s {
        assert forall i :: 0 <= i < |s[|pat|..]| ==> s[|pat|..][i] == s[i + |pat|];
        ReplaceKeepsOut(s[|pat|..], pat, rep, x);
      } else {
        assert forall i :: 0 <= i < |s[1..]| ==> s[1..][i] == s[i + 1];
        ReplaceKeepsOut(s[1..], pat, rep, x);
      }
    }
  }

  /** Replacing a one-character pattern by text without that character removes it entirely. */
  lemma {:induction false} ReplaceCharRemoves(s: string, c: char, rep: string)
    requires c !in rep
    ensures c !in ReplaceAll(s, [c], rep)
    decreases |s|
  {
    if |s| > 0 {
      if [c] <= s {
        ReplaceCharRemoves(s[1..], c, rep);
      } else {
        assert s[0] != c;
        ReplaceCharRemoves(s[1..], c, rep);
      }
    }
  }

  /** Text that does not start with `c` cannot start a `cc` match either. */
  lemma {:induction false} PairAfterFreePrefix(a: string, u: string, c: char)
    requires c !in a
    ensures Contains(a + u, [c, c]) ==> Contains(u, [c, c])
    decreases |a|
  {
    if |a| == 0 {
      assert a + u == u;
    } else {
      assert (a + u)[0] == a[0];
      assert !([c, c] <= a + u);
      assert (a + u)[1..] == a[1..] + u;
      PairAfterFreePrefix(a[1..], u, c);
    }
  }

  /** The result of replacing `cc` starts with `c` only when the text does. */
  lemma ReplacePairHead(s: string, c: char, rep: string)
    requires |rep| > 0 && c !in rep
    ensures |ReplaceAll(s, [c, c], rep)| > 0 && ReplaceAll(s, [c, c], rep)[0] == c ==> |s| > 0 && s[0] == c
  {
  }

  /** Replacing `cc` by text without `c` leaves no `cc` behind. */
  lemma {:induction false} ReplacePairRemoves(s: string, c: char, rep: string)
    requires |rep| > 0 && c !in rep
    ensures !Contains(ReplaceAll(s, [c, c], rep), [c, c])
    decreases |s|
  {
    if |s| > 0 {
      var r := ReplaceAll(s, [c, c], rep);
      if [c, c] <= s {
        var u := ReplaceAll(s[2..], [c, c], rep);
        ReplacePairRemoves(s[2..], c, rep);
        PairAfterFreePrefix(rep, u, c);
      } else {
        var u := ReplaceAll(s[1..], [c, c], rep);
        ReplacePairRemoves(s[1..], c, rep);
        ReplacePairHead(s[1..], c, rep);
        assert r == [s[0]] + u && r[1..] == u;
        assert !([c, c] <= r);
      }
    }
  }

  /** Text that never holds the pattern's first character is left as it is. */
  lemma ReplaceWithoutFirstChar(s: string, pat: string, rep: string)
    requires |pat| > 0
    ensures pat[0] !in s ==> ReplaceAll(s, pat, rep) == s
  {
    if pat[0] !in s {
      ReplaceUntouchedPrefix(s, "", pat, rep);
      assert s + "" == s;
    }
  }

  /** Text whose characters cannot begin a match passes through a replacement unchanged in front. */
  lemma {:induction false} ReplaceUntouchedPrefix(a: string, m: string, pat: string, rep: string)
    requires |pat| > 0 && pat[0] !in a
    ensures ReplaceAll(a + m, pat, rep) == a + ReplaceAll(m, pat, rep)
    decreases |a|
  {
    if |a| == 0 {
      assert a + m == m;
    } else {
      var s := a + m;
      assert s[0] == a[0] != pat[0];
      AppendDrop(a, m, 1);
      assert pat[0] !in a[1..];
      ReplaceUntouchedPrefix(a[1..], m, pat, rep);
      assert ReplaceAll(s, pat, rep) == [a[0]] + (a[1..] + ReplaceAll(m, pat, rep));
      AppendAssoc([a[0]], a[1..], ReplaceAll(m, pat, rep));
      assert a == [a[0]] + a[1..];
    }
  }

  /** A prefix of `m + b` longer than `m` reads the first character of `b`. */
  lemma PrefixReachingSuffix(pat: string, m: string, b: string)
    ensures pat <= m + b && |m| < |pat| ==> |b| > 0 && b[0] == pat[|m|]
  {
    if pat <= m + b && |m| < |pat| {
      assert (m + b)[|m|] == b[0];
    }
  }

  /** Dropping from the front of `m + b` no more than `m` holds drops from `m` alone. */
  lemma AppendDrop(m: string, b: string, k: nat)
    requires k <= |m|
    ensures (m + b)[k..] == m[k..] + b
  {
  }

  lemma AppendAssoc(x: string, y: string, z: string)
    ensures (x + y) + z == x + (y + z)
  {
  }

  /** A match at the front of `m`: the suffix carried through the rest carries through `m`. */
  lemma SuffixAfterMatch(m: string, b: string, pat: string, rep: string)
    requires |pat| > 0 && pat <= m
    requires ReplaceAll(m[|pat|..] + b, pat, rep) == ReplaceAll(m[|pat|..], pat, rep) + b
    ensures ReplaceAll(m + b, pat, rep) == ReplaceAll(m, pat, rep) + b
  {
    var t := m[|pat|..];
    var x := ReplaceAll(t, pat, rep);
    assert ReplaceAll(m, pat, rep) == rep + x;
    assert ReplaceAll(m + b, pat, rep) == rep + (x + b) by {
      AppendDrop(m, b, |pat|);
      assert pat <= m + b;
    }
    AppendAssoc(rep, x, b);
  }

  /** No match at the front of `m + b`: the first character of `m` is kept. */
  lemma SuffixAfterKeep(m: string, b: string, pat: string, rep: string)
    requires |pat| > 0 && |m| > 0 && !(pat <= m + b)
    requires ReplaceAll(m[1..] + b, pat, rep) == ReplaceAll(m[1..], pat, rep) + b
    ensures ReplaceAll(m + b, pat, rep) == ReplaceAll(m, pat, rep) + b
  {
    var t := m[1..];
    var x := ReplaceAll(t, pat, rep);
    assert ReplaceAll(m, pat, rep) == [m[0]] + x by {
      assert !(pat <= m);
    }
    assert ReplaceAll(m + b, pat, rep) == [m[0]] + (x + b) by {
      AppendDrop(m, b, 1);
      assert (m + b)[0] == m[0];
    }
    AppendAssoc([m[0]], x, b);
  }

  /** A suffix sharing no character with the pattern passes through a replacement unchanged. */
  lemma {:induction false} ReplaceUntouchedSuffix(m: string, b: string, pat: string, rep: string)
    requires |pat| > 0
    requires forall i :: 0 <= i < |b| ==> b[i] !in pat
    ensures ReplaceAll(m + b, pat, rep) == ReplaceAll(m, pat, rep) + b
    decreases |m|
  {
    if |m| == 0 {
      assert pat[0] !in b;
      ReplaceWithoutFirstChar(b, pat, rep);
      assert m + b == b;
    } else if pat <= m + b {
      PrefixReachingSuffix(pat, m, b);
      assert pat <= m;
      ReplaceUntouchedSuffix(m[|pat|..], b, pat, rep);
      SuffixAfterMatch(m, b, pat, rep);
    } else {
      ReplaceUntouchedSuffix(m[1..], b, pat, rep);
      SuffixAfterKeep(m, b, pat, rep);
    }
  }

  /** `s` with every character in `drop` deleted: the reference definition of stripping. */
  function Without(s: string, drop: set<char>): (r: string)
    ensures forall i :: 0 <= i < |r| ==> r[i] !in drop
    ensures |r| <= |s|
    decreases |s|
  {
    if |s| == 0 then ""
    else (if s[0] in drop then "" else [s[0]]) + Without(s[1..], drop)
  }

  lemma {:induction false} WithoutTwice(s: string, a: set<char>, b: set<char>)
    ensures Without(Without(s, a), b) == Without(s, a + b)
    decreases |s|
  {
    if |s| > 0 {
      WithoutTwice(s[1..], a, b);
      var rest := Without(s[1..], a);
      if s[0] in a {
        assert Without(s, a) == rest;
      } else {
        var t := [s[0]] + rest;
        assert Without(s, a) == t;
        assert t[0] == s[0] && t[1..] == rest;
      }
    }
  }

  /** Deleting a one-character pattern is deleting that character. */
  lemma {:induction false} ReplaceCharByNothing(s: string, c: char)
    ensures ReplaceAll(s, [c], "") == Without(s, {c})
    decreases |s|
  {
    if |s| > 0 {
      ReplaceCharByNothing(s[1..], c);
      if [c] <= s {
        assert s[1..] == s[|[c]|..];
      }
    }
  }

  /** Deleting the pairs `cc` first does not change what deleting every `c` leaves. */
  lemma {:induction false} DeletePairsThenChars(s: string, c: char)
    ensures Without(ReplaceAll(s, [c, c], ""), {c}) == Without(s, {c})
    decreases |s|
  {
    if |s| > 0 {
      if [c, c] <= s {
        DeletePairsThenChars(s[2..], c);
        assert ReplaceAll(s, [c, c], "") == ReplaceAll(s[2..], [c, c], "");
        assert s[1..][1..] == s[2..];
        assert Without(s, {c}) == Without(s[1..], {c}) == Without(s[2..], {c});
      } else {
        DeletePairsThenChars(s[1..], c);
        assert ReplaceAll(s, [c, c], "") == [s[0]] + ReplaceAll(s[1..], [c, c], "");
      }
    }
  }

  /** Python's `s.rstrip(c)`: `s` without its trailing run of `c`. */
  function RStrip(s: string, c: char): (r: string)
    ensures r <= s
    ensures |r| == 0 || r[|r| - 1] != c
    ensures forall i :: |r| <= i < |s| ==> s[i] == c
    decreases |s|
  {
    if |s| > 0 && s[|s| - 1] == c then RStrip(s[..|s| - 1], c) else s
  }
}

=== FILE: wrappers.dfy ===
/** Optional values and success/failure results shared by the client and the gateway models. */
module Wrappers {

  /** Python's `Optional[T]`: `None` or a present value. */
  datatype Option<+T> = None | Some(value: T) {

    /** The present value, or `default` when there is none. */
    function GetOr(default: T): T {
      match this
      case Some(v) => v
      case None => default
    }
  }

  /** The outcome of an operation that may raise instead of returning. */
  datatype Result<+R, +E> = Success(value: R) | Failure(error: E) {

    predicate IsFailure() {
      Failure?
    }

    function PropagateFailure<U>(): Result<U, E>
      requires Failure?
    {
      Failure(error)
    }

    function Extract(): R
      requires Success?
    {
      value
    }
  }
}
